=== FILE: README.md ===
# Gauntlet feature pipeline — a Dafny model

Gauntlet turns building footprints into a table of per-building features for
classification. It builds a k-d tree over the building centroids and then runs
two stages. Each stage cuts the table into slices, runs a worker on every
slice, and concatenates the worker outputs in order:

- Stage A (`multi_nnd`) attaches each building's nearest-neighbour distance.
- Stage B (`multi_gauntlet_atts`) drops rows whose geometry is null. For every
  remaining row it derives shape counts (`bounds`) and the statistics of five
  circular scan windows (`nni`, radii 50, 100, 250, 500 and 1000).

This project models that core, which lives in `src/gauntlet.py`:

| file | module | what it models |
|---|---|---|
| `options.dfy` | `Options` | `Option` and `Result` |
| `seqs.dfy` | `Seqs` | row-wise apply, filtering and in-order concatenation of frames, with the lemmas that move them across a concatenation |
| `partition.dfy` | `Partition` | `slice_frame` and the stage-B slice-count rule |
| `shape.dfy` | `Shape` | the vertex and ring counting of `bounds` |
| `window.dfy` | `Window` | the ball query and the statistics of `nni` |
| `pipeline.dfy` | `Pipeline` | the main block: the index, stage A, the shared `all_NND`/`all_sqft` arrays, stage B, the merge; also the stage-B worker as the source writes it (see Findings) |

Each stage is modelled as a sequential map over the slices, followed by
concatenation. The central result is the contract of `Pipeline.Run`: the
sliced pipeline gives exactly the table computed row by row over the whole
input, and it fails only when no row has a geometry. So in the model, how the
rows are partitioned and how many workers run cannot change the output. The
source as written does not have this property: a row with an empty geometry
is lost when it lands in a slice with no other coordinates (see Findings).
The model uses the corrected worker.

The following are parameters of the model:

- The nearest-neighbour query of `nnd` (k-d tree, k = 2) is the parameter
  `nndOf`.
- pi and the square root are the fields of `Window.Numerics`.

Floating-point values are modelled as `real`. A numpy division by zero gives
infinity or not-a-number; the model represents that as `Window.Quot.NonFinite`.

**Units.** In the code, the `lat`/`lon` columns are computed at lines 259-260,
while the frame is still in the UTM projection. The reprojection at line 265
changes only the geometry column. So the tree built at lines 268-269 is over
projected coordinates in metres, which matches the metre radii and the
`nnd` docstring. It is not over decimal degrees. The model follows the code:
the radii are in the units of the indexed points. The geometry that `bounds`
reads in stage B is in degrees.

**NaN centroids.** The centroid of a null or an empty geometry has NaN
coordinates, and those NaN points are indexed with the others (lines 259-269).
The model writes such a centroid as `Window.NotANumber`
(`Pipeline.Building.Centroid`). Every distance comparison with NaN is false.
So a NaN point lies in no window, and a query at a NaN point finds nothing.
A row with an empty geometry therefore gets window count 0 at every radius.

## Model

| member | source | states |
|---|---|---|
| Partition.SliceSizes | src/gauntlet.py:36-40 | every slice but the last has `int(len/slice_count)` rows; the last takes the remainder; a frame shorter than the slice count lands whole in the last slice, and the others are empty |
| Partition.SliceFrameConcat | src/gauntlet.py:39-46 | concatenating the slices in order gives back the frame: no row is lost, duplicated or moved |
| Partition.StageBSliceCount | src/gauntlet.py:292-300 | the stage-B slice count is at least `core_count`; it equals `core_count` exactly when the row count is at most `core_count * task_length`; otherwise it is the k with (k-1)·t ≤ n < k·t |
| Partition.StageBSlicesBounded | src/gauntlet.py:292-300 | no non-final stage-B slice has more than `task_length` rows, and past `core_count * task_length` rows each has strictly fewer |
| Partition.ExactMultipleGetsExtraSlice | src/gauntlet.py:297-300 | a row count that is an exact multiple m > `core_count` of `task_length` still gets m + 1 slices |
| Partition.FinalSliceMayExceedTaskLength | src/gauntlet.py:36-46 | the last slice is not bounded by `task_length`: 5 rows, one core and task length 2 give slices of 1, 1 and 3 rows |
| Shape.Counts | src/gauntlet.py:64-73 | the counts are read from element 0 of the coordinate list; the ring count is absent (the one-short tuple) exactly for an empty geometry, and the vertex count is then 0 |
| Shape.PolygonCounts | src/gauntlet.py:68-69 | for a polygon, the vertex count is dimension × exterior points, closing point included; the geometry count is the number of exterior points; holes are ignored |
| Shape.MultiPolygonCounts | src/gauntlet.py:68-69 | for a multipolygon, the vertex count is the number of points over the rings of the first polygon; the geometry count is that polygon's ring count; later polygons are ignored |
| Shape.WrapperChangesCounts | src/gauntlet.py:68-69 | one ring stored as a polygon or as a one-part multipolygon gives different counts (dimension-fold vertex count; ring length versus 1) |
| Window.Ball | src/gauntlet.py:126 | the ball query returns exactly the positions of the indexed points within `buff` of the query point; a NaN point, indexed or queried, is within no window (the model lists positions in increasing order, which no later step depends on) |
| Window.NaNQueryEmpty | src/gauntlet.py:126-131 | a query at a NaN centroid finds nothing, so `nni` takes its empty-window branch: count 0 and no sizes |
| Window.BallEmpty | src/gauntlet.py:126-131 | the ball is empty exactly when no indexed point lies in the window |
| Window.CountIsCardinality | src/gauntlet.py:127 | `cluster` is the number of indexed points inside the closed disc |
| Window.BallGrows | src/gauntlet.py:126 | a larger radius keeps every point of a smaller one |
| Window.CountNondecreasing | src/gauntlet.py:126-127 | the window count never decreases as the radius grows |
| Window.SelfCounted | src/gauntlet.py:126-127 | a window centred on an indexed point counts that point |
| Window.Nni | src/gauntlet.py:125-151 | count = ball size; zero count exactly when the window is empty, with all-zero statistics and no sizes; for one point, zero distances and index, with mean, min and max equal to that building's size and std and cv 0; above one, the statistics of `Window.CrowdedWindow` |
| Window.Lone | src/gauntlet.py:133-137 | the one-point branch: count 1, zero omd, emd, nni and intensity; the sizes are those of the one building in the window |
| Window.Crowded | src/gauntlet.py:139-151 | for more than one point: omd is the window mean of `all_NND`; emd = ½·√(π·buff²/n); nni = omd / emd (non-finite when emd is 0); intensity = π × (sum over the window of squared distances to the query point) / n, non-negative when pi is |
| Window.Sizes | src/gauntlet.py:146-149 | the size mean is the window mean of `all_sqft`; std = √(sum over the window of squared deviations from the mean / (n − 1)); min and max bound every size in the window, are attained there, and enclose the mean; cv = std / mean |
| Window.Intensity | src/gauntlet.py:140-141 | pi times the mean of a non-negative total of squared distances is non-negative when pi is |
| Window.WindowSqDists | src/gauntlet.py:140-141 | the squared distances of the points the ball query selects add up to the scan of all indexed points that keeps those within the window |
| Window.WindowSqDevs | src/gauntlet.py:146-148 | the squared deviations of the selected sizes add up to the scan of all sizes whose point lies within the window |
| Window.WindowSumIsBallSum | src/gauntlet.py:142-143 | summing the values the ball query selects equals scanning all positions and adding those within the window |
| Window.MeanBetween | src/gauntlet.py:146-148 | the mean of a non-empty list lies between its minimum and maximum |
| Window.WindowExtremes | src/gauntlet.py:146-148 | when some indexed point lies in the window, the ball is non-empty, and the minimum and maximum of the values it selects bound every value in the window and are attained there |
| Window.Divide | src/gauntlet.py:145 | a quotient is finite exactly when the divisor is non-zero, and then quotient × divisor = dividend |
| Window.NniNonNegative | src/gauntlet.py:140-145 | with non-negative distances, omd ≥ 0; nni is finite and non-negative for windows of at most one point, and whenever emd > 0 |
| Window.UniformWindow | src/gauntlet.py:139-149 | in a window of more than one building whose sizes all equal m and whose mean nearest-neighbour distance is d: the index is d / emd, the mean size is m, the standard deviation is sqrt(0), and the coefficient of variation is sqrt(0) / m |
| Window.ThreeInARow | src/gauntlet.py:139-149 | three buildings one unit apart, queried at the middle one with radius 1: count 3, omd 1, emd for three points, index 1 / emd, mean size 100, standard deviation sqrt(0) and coefficient of variation sqrt(0) / 100 |
| Pipeline.Building.Centroid | src/gauntlet.py:259-260 | the indexed `lon`/`lat` point of a row is a real point exactly when its geometry is present and non-empty, and NaN otherwise |
| Pipeline.StageA | src/gauntlet.py:275-282 | stage A keeps every row in place and attaches to row i the distance of index point i |
| Pipeline.MultiNnd | src/gauntlet.py:100 | a stage-A worker only adds a column, row for row |
| Pipeline.GlobalsAligned | src/gauntlet.py:259-290 | the shared arrays equal those computed directly from the input: point i, its nearest-neighbour distance and its size in square feet |
| Pipeline.GauntletAtts | src/gauntlet.py:172-179 | with the stage-B worker corrected as in Findings (the source's worker differs for a slice of only empty geometries): a worker returns nothing exactly when every geometry in its slice is null; otherwise one row per non-null geometry |
| Pipeline.Merge | src/gauntlet.py:307 | the merge fails exactly when every worker returned nothing; otherwise it is the in-order concatenation of the present results |
| Pipeline.StageBIsSliceFree | src/gauntlet.py:298-307 | with the corrected stage-B worker (see Findings): for any slice count, stage B yields the attributes of the non-null rows in order, and fails only when there are none |
| Pipeline.KeptEmpty | src/gauntlet.py:172-174 | no row survives the filter exactly when every geometry is null |
| Pipeline.Run | src/gauntlet.py:268-307 | with the corrected stage-B worker (see Findings; the source's main block is `Pipeline.RunAsWritten`): the main block (index, stage A, shared arrays, stage-B slice count, stage B, merge) fails exactly when every geometry is null, and otherwise equals the unsliced row-by-row table `Pipeline.Reference`, for any core count and task length |
| Pipeline.ReferenceIds | src/gauntlet.py:172-307 | the identifiers down the unsliced table are those of the non-null input rows, in input order |
| Pipeline.KeptRowsInOrder | src/gauntlet.py:172 | the rows kept after stage A are the non-null input rows, in input order |
| Pipeline.FinalRowOrder | src/gauntlet.py:172-307 | the identifiers down the output are those of the non-null input rows, in input order |
| Pipeline.RadiiCounts | src/gauntlet.py:195-213 | at an indexed point that is not NaN, the counts along the five radii are at least 1 and non-decreasing |
| Pipeline.WindowCountsInOutput | src/gauntlet.py:195-213 | every output row has five windows; they count at least 1 exactly when the row's ring count is present (a non-empty geometry, whose centroid is indexed and counts itself), and 0 for an empty geometry; the counts never decrease along the radii |
| Pipeline.ReferenceWindowCounts | src/gauntlet.py:181-213 | for the per-row output of `multi_gauntlet_atts` (`Pipeline.AttributesWith`: the five `nni` calls at the row's centroid), the window counts are at least 1 exactly when the ring count is present, and never decrease along the radii |
| Pipeline.RunKeepsEveryGeometry | src/gauntlet.py:172-307 | when no geometry is null, the pipeline succeeds with one output row per input row, for any core count and task length |
| Pipeline.GauntletAttsAsWritten | src/gauntlet.py:172-224 | the worker as written returns nothing exactly when no row of its slice has a non-empty geometry, and otherwise agrees with `Pipeline.GauntletAtts` |
| Pipeline.StageBAsWritten | src/gauntlet.py:172-224 | stage B with the as-written worker fails exactly when no row has a non-empty geometry, so a frame of only null and empty geometries is an error |
| Pipeline.RunAsWritten | src/gauntlet.py:268-307 | the main block with the as-written worker fails exactly when no input row has a non-empty geometry |
| Pipeline.EmptyGeometryLostAlone | src/gauntlet.py:184 | a triangle and an empty geometry, task length 2: as written, one core outputs 2 rows and two cores output 1; the corrected pipeline outputs 2 rows with two cores |
| Seqs.MergeFiltered | src/gauntlet.py:172-179 | filtering and mapping each slice, reporting an empty result as absent and concatenating what is present, equals filtering and mapping the whole; all results are absent exactly when nothing passes the filter |
| Seqs.FlattenMapped | src/gauntlet.py:280-282 | a row-wise apply commutes with in-order concatenation |

## Left out

- Reading and writing files, choosing the columns, CRS detection and the
  projections (lines 238-265, 312-313). The model starts from rows whose
  geometry, projected area and `lon`/`lat` centroid are already given; the
  centroid columns are read only for a non-empty geometry.
- `nnd` (line 88) is the parameter `nndOf` of the model. Its k-d tree query
  for the second-nearest point, and the infinity that query returns for a
  one-point dataset, are outside the model.
- `nni` takes pi and the square root from `math`. Here they are the
  uninterpreted fields of `Window.Numerics`, so `emd`, `intensity` and `std`
  are stated as expressions in them, not as numbers.
- Floating-point rounding: all arithmetic is exact arithmetic on `real`.
- `shape_area`, `shape_length` and the envelope columns of `bounds`
  (`lat_dif`, `long_dif`, `envel_area`) need polygon area, length and bounding
  boxes on floating point. The same holds for the ratio columns
  `complexity_ratio`, `iasl`, `vpa`, `complexity_ps` and `ipq` (lines 181-189).
  The model keeps only the two integer counts of `bounds`.
- The catch-all handlers of `nni` and `multi_gauntlet_atts` (lines 153-155,
  222-224) turn any exception into an absent result. The model has one such
  exception, the five-column assignment of line 184 (see Findings). It also
  relies on `Window.Shared`: `Window.Nni` needs `all_NND` and `all_sqft` to
  have one entry per indexed point, the type guarantees this, and so the
  failing-lookup path cannot arise.
- Pipeline.Run: the model assumes a k-d tree that
  accepts the NaN centroids of null and empty geometries and never matches
  them. A tree build that rejects non-finite points would stop the run at
  line 269 whenever a null or empty geometry is present; that path is not
  modelled.
- `process_map`, the worker processes, `chunksize` and the `gc` calls: a
  worker is a pure function of its slice, so the model runs the workers one
  after another. `Window.Shared` plays the role of the globals the workers
  read.
- The second tree query of `nni` (line 140) asks for the `cluster` nearest
  points. The model uses the ball's points instead, which are the same set,
  since exactly `cluster` points lie in the window.
- Window.Nni: for one point, pandas `describe` would report a
  not-a-number standard deviation, but the code returns the literal 0 in its
  place. The model follows the code.
- Shape.Counts: the model follows shapely 2.x, where the `bounds` of an
  empty geometry are four NaNs, so line 64 succeeds and lines 71-73 return the
  four-element tuple. Under shapely 1.x those `bounds` are an empty tuple, the
  unpacking at line 64 (outside the `try`) raises, and the handler at lines
  222-224 drops the whole slice, non-empty rows included. That behaviour is not
  modelled.
- Window.Ball: a negative radius matches nothing. The five radii the pipeline
  uses are all positive.

## Findings

| source | as written | input that shows it | evidently intended | confidence | as-written member | corrected member |
|---|---|---|---|---|---|---|
| src/gauntlet.py:184 | `bounds` gives an empty geometry a four-element tuple (line 73). When every kept row of a slice has an empty geometry, the frame has four columns, the five-column assignment raises, and the handler at lines 222-224 returns nothing, so those rows are lost. With one non-empty geometry in the same slice they are kept with `geom_count` missing | a triangle and an empty polygon, task length 2: one core keeps both rows, two cores put the empty polygon alone in a slice and lose it | empty-geometry rows are kept with the ring count missing, whatever the slicing | medium, not executed; assumes shapely 2.x `bounds` (four NaNs for an empty geometry) and a k-d tree that accepts NaN points | Pipeline.GauntletAttsAsWritten, Pipeline.StageBAsWritten, Pipeline.RunAsWritten, Pipeline.EmptyGeometryLostAlone | Pipeline.GauntletAtts, Pipeline.StageBIsSliceFree, Pipeline.Run |

=== FILE: options.dfy ===
/** Failure-carrying values used across the model. */
module Options {

  /** A value that may be missing: a pandas cell left empty, or a worker that returned nothing. */
  datatype Option<+T> = None | Some(value: T)

  /** Either a value or the error that ended the computation. */
  datatype Result<+T, +E> = Ok(value: T) | Err(error: E)
}

=== FILE: partition.dfy ===
/** Work partitioning of the two fan-out stages: `slice_frame` and the
    stage-B rule that picks how many slices to cut. */
module Partition {
  import opened Seqs

  /** Row offsets at which the slices start, followed by the frame length:
      slice i covers rows [b[i], b[i+1]). Every slice but the last has
      `n / k` rows (the source's `int(len(frame) / slice_count)`). */
  function StartIndex(n: nat, k: nat): (b: seq<nat>)
    requires k >= 1
    ensures |b| == k + 1
    ensures b[0] == 0 && b[k] == n
    ensures forall i :: 0 <= i < k ==> b[i] == i * (n / k)
    ensures forall i, j :: 0 <= i <= j <= k ==> b[i] <= b[j] <= n
  {
    var chunk := n / k;
    ChunkTimesBelow(n, k);
    forall i, j | 0 <= i <= j <= k - 1
      ensures 0 <= i * chunk <= j * chunk <= n
    {
      MulMonotone(0, i, chunk);
      MulMonotone(i, j, chunk);
      MulMonotone(j, k, chunk);
    }
    seq(k, i requires 0 <= i < k => (i * chunk) as nat) + [n]
  }

  /** Splits `frame` into `k` contiguous slices; the last absorbs the remainder. */
  function SliceFrame<T>(frame: seq<T>, k: nat): (r: seq<seq<T>>)
    requires k >= 1
    ensures |r| == k
    ensures forall i :: 0 <= i < k ==> r[i] == frame[StartIndex(|frame|, k)[i]..StartIndex(|frame|, k)[i + 1]]
  {
    var b := StartIndex(|frame|, k);
    seq(k, i requires 0 <= i < k => frame[b[i]..b[i + 1]])
  }

  /** Every slice but the last has `len(frame) / k` rows and the last takes
      the rest; a frame shorter than `k` lands whole in the last slice. */
  lemma SliceSizes<T>(frame: seq<T>, k: nat)
    requires k >= 1
    ensures var r := SliceFrame(frame, k);
      && (forall i :: 0 <= i < k - 1 ==> |r[i]| == |frame| / k)
      && |r[k - 1]| == |frame| - (k - 1) * (|frame| / k)
      && (|frame| < k ==> r[k - 1] == frame && forall i :: 0 <= i < k - 1 ==> r[i] == [])
  {
    StartIndexSteps(|frame|, k);
  }

  /** Consecutive start offsets are `n / k` apart, except before the final boundary. */
  lemma StartIndexSteps(n: nat, k: nat)
    requires k >= 1
    ensures forall i :: 0 <= i < k - 1 ==> StartIndex(n, k)[i + 1] - StartIndex(n, k)[i] == n / k
    ensures n < k ==> StartIndex(n, k)[k - 1] == 0
  {
    var b := StartIndex(n, k);
    var chunk := n / k;
    forall i | 0 <= i < k - 1
      ensures b[i + 1] - b[i] == chunk
    {
      assert b[i] == i * chunk;
      assert b[i + 1] == (i + 1) * chunk;
      SuccMul(i, chunk);
    }
    if n < k {
      DivSmall(n, k);
      assert b[k - 1] == (k - 1) * chunk;
      ZeroMul(k - 1, chunk);
    }
  }

  lemma DivSmall(n: nat, k: nat)
    requires n < k
    ensures n / k == 0
  {
  }

  lemma ZeroMul(i: int, c: int)
    requires c == 0
    ensures i * c == 0
  {
  }

  lemma SuccMul(i: int, c: int)
    ensures (i + 1) * c == i * c + c
  {
  }

  /** The number of slices for stage B: `len / task_length`, raised to
      `core_count` when smaller; when it is not exactly `core_count` its
      integer part plus one. */
  function StageBSliceCount(n: nat, coreCount: nat, taskLength: nat): (k: nat)
    requires coreCount >= 1 && taskLength >= 1
    ensures k >= coreCount
    ensures k == coreCount <==> n <= coreCount * taskLength
    ensures k > coreCount ==> (k - 1) * taskLength <= n < k * taskLength
  {
    DivBracket(n, taskLength);
    if n < coreCount * taskLength then coreCount
    else if n == coreCount * taskLength then coreCount
    else
      assert n / taskLength >= coreCount by {
        if n / taskLength < coreCount {
          MulMonotone(n / taskLength + 1, coreCount, taskLength);
        }
      }
      n / taskLength + 1
  }

  // ----- arithmetic helpers -----

  lemma MulMonotone(i: int, j: int, c: nat)
    requires i <= j
    ensures i * c <= j * c
  {
  }

  lemma ChunkTimesBelow(n: nat, k: nat)
    requires k >= 1
    ensures k * (n / k) <= n
    ensures n < k * (n / k + 1)
  {
  }

  lemma DivBracket(n: nat, t: nat)
    requires t >= 1
    ensures (n / t) * t <= n < (n / t + 1) * t
  {
  }

  // ----- properties -----

  /** Concatenating the slices in order reproduces the frame: no row is
      dropped, duplicated or moved. */
  lemma {:induction false} SliceFrameConcat<T>(frame: seq<T>, k: nat)
    requires k >= 1
    ensures Flatten(SliceFrame(frame, k)) == frame
  {
    var b := StartIndex(|frame|, k);
    ContiguousConcat(frame, b, k);
    assert SliceFrame(frame, k) == Pieces(frame, b, k);
    assert frame[b[0]..b[k]] == frame;
  }

  /** Cutting `frame` at non-decreasing boundaries and concatenating the first
      m pieces gives back the rows between the first and the m-th boundary. */
  function Pieces<T>(frame: seq<T>, b: seq<nat>, m: nat): (r: seq<seq<T>>)
    requires m < |b|
    requires forall i, j :: 0 <= i <= j < |b| ==> b[i] <= b[j] <= |frame|
    ensures |r| == m
    ensures forall i :: 0 <= i < m ==> r[i] == frame[b[i]..b[i + 1]]
  {
    seq(m, i requires 0 <= i < m => frame[b[i]..b[i + 1]])
  }

  lemma {:induction false} ContiguousConcat<T>(frame: seq<T>, b: seq<nat>, m: nat)
    requires m < |b|
    requires forall i, j :: 0 <= i <= j < |b| ==> b[i] <= b[j] <= |frame|
    ensures Flatten(Pieces(frame, b, m)) == frame[b[0]..b[m]]
  {
    if m > 0 {
      ContiguousConcat(frame, b, m - 1);
      assert Pieces(frame, b, m)[..m - 1] == Pieces(frame, b, m - 1);
      assert frame[b[0]..b[m - 1]] + frame[b[m - 1]..b[m]] == frame[b[0]..b[m]];
    }
  }

  /** Stage B never hands a worker a non-final slice above `task_length`
      rows; once the frame outgrows `core_count * task_length`, every
      non-final slice is strictly below it. */
  lemma StageBSlicesBounded<T>(frame: seq<T>, coreCount: nat, taskLength: nat)
    requires coreCount >= 1 && taskLength >= 1
    ensures var k := StageBSliceCount(|frame|, coreCount, taskLength);
            var r := SliceFrame(frame, k);
            forall i :: 0 <= i < k - 1 ==>
              |r[i]| <= taskLength && (|frame| > coreCount * taskLength ==> |r[i]| < taskLength)
  {
    var k := StageBSliceCount(|frame|, coreCount, taskLength);
    StageBChunkBounded(|frame|, coreCount, taskLength);
    SliceSizes(frame, k);
  }

  /** The arithmetic behind `StageBSlicesBounded`: the per-slice row count `n / k`. */
  lemma StageBChunkBounded(n: nat, coreCount: nat, taskLength: nat)
    requires coreCount >= 1 && taskLength >= 1
    ensures var k := StageBSliceCount(n, coreCount, taskLength);
            n / k <= taskLength && (n > coreCount * taskLength ==> n / k < taskLength)
  {
    var k := StageBSliceCount(n, coreCount, taskLength);
    var chunk := n / k;
    ChunkTimesBelow(n, k);
    if n > coreCount * taskLength {
      assert n < k * taskLength;
      if chunk >= taskLength {
        MulMonotone(taskLength, chunk, k);
      }
    } else {
      assert k == coreCount;
      if chunk > taskLength {
        MulMonotone(taskLength + 1, chunk, k);
      }
    }
  }

  /** A frame that is an exact multiple m of `task_length`, m above
      `core_count`, is still cut into m + 1 slices. */
  lemma ExactMultipleGetsExtraSlice(m: nat, coreCount: nat, taskLength: nat)
    requires coreCount >= 1 && taskLength >= 1 && m > coreCount
    ensures StageBSliceCount(m * taskLength, coreCount, taskLength) == m + 1
  {
    var k := StageBSliceCount(m * taskLength, coreCount, taskLength);
    MulMonotone(coreCount + 1, m, taskLength);
    if k - 1 > m {
      MulMonotone(m + 1, k - 1, taskLength);
    } else if k - 1 < m {
      MulMonotone(k, m, taskLength);
    }
  }

  /** The final slice has no such bound: with one worker and slices of at
      most two rows, five rows are cut 1, 1, 3. */
  lemma FinalSliceMayExceedTaskLength()
    ensures StageBSliceCount(5, 1, 2) == 3
    ensures MapSeq(SliceFrame([1, 2, 3, 4, 5], 3), (s: seq<int>) => |s|) == [1, 1, 3]
  {
    var r := SliceFrame([1, 2, 3, 4, 5], 3);
    SliceSizes([1, 2, 3, 4, 5], 3);
    assert |r[0]| == 1 && |r[1]| == 1 && |r[2]| == 3;
  }
}

=== FILE: pipeline.dfy ===
/** The two fan-out/fan-in stages of the script's main block, run as
    sequential maps over slices followed by in-order concatenation. */
module Pipeline {
  import opened Options
  import opened Seqs
  import opened Partition
  import opened Shape
  import opened Window

  /** Square feet per square metre, applied to the projected area. */
  const SqftPerSqm: real := 10.7639

  /** The five scan radii, in the units of the indexed coordinates. */
  const Radii: seq<int> := [50, 100, 250, 500, 1000]

  /** An input row after the pre-feature step: identifier, geometry (possibly
      null), the centroid coordinates of a non-empty geometry and the projected
      area. */
  datatype Building = Building(id: int, geom: Option<Geometry>, lon: real, lat: real, sqmeters: real)
  {
    /** The geometry is present and has coordinates. */
    predicate HasShape() {
      geom.Some? && !geom.value.IsEmpty()
    }

    /** The point this row contributes to the index: the `lon`/`lat` columns.
        The centroid of a null or empty geometry has NaN coordinates. */
    function Centroid(): (p: Point)
      ensures p.Point? <==> HasShape()
    {
      if HasShape() then Point(lon, lat) else NotANumber
    }

    function Sqft(): real {
      sqmeters * SqftPerSqm
    }
  }

  /** A row after stage A: the building and its nearest-neighbour distance. */
  datatype Enriched = Enriched(row: Building, nnd: real)

  /** A stage-A row kept by the null-geometry filter, geometry unwrapped. */
  datatype Located = Located(row: Enriched, geom: Geometry)

  /** One row of the final table (geometry and the centroid columns dropped). */
  datatype Feature = Feature(
    id: int, sqmeters: real, sqft: real, nnd: real, counts: ShapeCounts, windows: seq<WindowStats>)

  /** `core_count` and `task_length`. */
  datatype Config = Config(coreCount: nat, taskLength: nat)
  {
    predicate Valid() {
      coreCount >= 1 && taskLength >= 1
    }
  }

  /** `pd.concat` refuses a list holding no frame at all. */
  datatype PipelineError = NothingToConcatenate

  /** The index points, in row order. */
  function TreePoints(rows: seq<Building>): (pts: seq<Point>)
    ensures |pts| == |rows|
    ensures forall i :: 0 <= i < |rows| ==> pts[i] == rows[i].Centroid()
  {
    MapSeq(rows, (b: Building) => b.Centroid())
  }

  // ----- stage A -----

  /** `multi_nnd` on one row: attach the nearest-neighbour distance of its centroid. */
  function EnrichWith(nndOf: Point -> real): Building -> Enriched
  {
    (b: Building) => Enriched(b, nndOf(b.Centroid()))
  }

  /** `multi_nnd`: one stage-A worker; it only adds a column. */
  function MultiNnd(slice: seq<Building>, nndOf: Point -> real): (out: seq<Enriched>)
    ensures |out| == |slice|
    ensures forall i :: 0 <= i < |slice| ==> out[i].row == slice[i]
  {
    MapSeq(slice, EnrichWith(nndOf))
  }

  /** Stage A: slice into `core_count` parts, run `multi_nnd` on each, concatenate.
      Row i of the result is input row i with the distance of index point i. */
  function StageA(rows: seq<Building>, cfg: Config, nndOf: Point -> real): (out: seq<Enriched>)
    requires cfg.Valid()
    ensures |out| == |rows|
    ensures forall i :: 0 <= i < |rows| ==> out[i] == Enriched(rows[i], nndOf(TreePoints(rows)[i]))
  {
    var slices := SliceFrame(rows, cfg.coreCount);
    var results := MapSeq(slices, (s: seq<Building>) => MultiNnd(s, nndOf));
    SliceFrameConcat(rows, cfg.coreCount);
    FlattenMapped(slices, results, EnrichWith(nndOf));
    Flatten(results)
  }

  /** `all_NND` and `all_sqft`, read off the stage-A output, with the tree. */
  function Globals(tree: seq<Point>, enriched: seq<Enriched>): (sh: Shared)
    requires |enriched| == |tree|
    ensures sh.points == tree
    ensures forall i :: 0 <= i < |tree| ==> sh.nnd[i] == enriched[i].nnd && sh.sqft[i] == enriched[i].row.Sqft()
  {
    Snapshot(tree, MapSeq(enriched, (e: Enriched) => e.nnd), MapSeq(enriched, (e: Enriched) => e.row.Sqft()))
  }

  // ----- stage B -----

  /** The null-geometry filter of `multi_gauntlet_atts`. */
  function Keep(e: Enriched): Option<Located>
  {
    match e.row.geom
    case Some(g) => Some(Located(e, g))
    case None => None
  }

  /** The windows of one row at the five radii. */
  function WindowsAt(sh: Shared, q: Point, num: Numerics): int -> WindowStats
  {
    (r: int) => Nni(sh, q, r, num)
  }

  /** The attributes `multi_gauntlet_atts` computes for one kept row. */
  function AttributesWith(sh: Shared, num: Numerics): Located -> Feature
  {
    (l: Located) =>
      var b := l.row.row;
      Feature(b.id, b.sqmeters, b.Sqft(), l.row.nnd, Counts(l.geom),
              MapSeq(Radii, WindowsAt(sh, b.Centroid(), num)))
  }

  /** `multi_gauntlet_atts`: one stage-B worker. It drops the rows whose
      geometry is null and returns nothing when none is left. Rows with an
      empty geometry are kept with the ring count missing, even when no row
      of the slice has coordinates; `GauntletAttsAsWritten` is the source's
      behaviour in that case. */
  function GauntletAtts(slice: seq<Enriched>, sh: Shared, num: Numerics): (r: Option<seq<Feature>>)
    ensures r.None? <==> forall j :: 0 <= j < |slice| ==> slice[j].row.geom.None?
    ensures r.Some? ==> |r.value| > 0
    ensures r.Some? ==> |r.value| == |FilterMap(slice, Keep)|
  {
    var kept := FilterMap(slice, Keep);
    if |kept| == 0 then None else Some(MapSeq(kept, AttributesWith(sh, num)))
  }

  /** `pd.concat` of the worker results: absent results are skipped, and a
      list with nothing present is an error. */
  function Merge(results: seq<Option<seq<Feature>>>): (r: Result<seq<Feature>, PipelineError>)
    ensures r.Err? <==> forall i :: 0 <= i < |results| ==> results[i].None?
    ensures r.Ok? ==> r.value == Flatten(Somes(results))
  {
    var present := Somes(results);
    if |present| == 0 then Err(NothingToConcatenate) else Ok(Flatten(present))
  }

  /** The whole computation: index, stage A, snapshot, stage B, merge.
      Partitioning is invisible in the result: the pipeline produces exactly
      the unsliced row-by-row table, and fails only when no row has a geometry. */
  function Run(rows: seq<Building>, cfg: Config, nndOf: Point -> real, num: Numerics): (r: Result<seq<Feature>, PipelineError>)
    requires cfg.Valid()
    ensures r ==
      if forall i :: 0 <= i < |rows| ==> rows[i].geom.None?
      then Err(NothingToConcatenate)
      else Ok(Reference(rows, nndOf, num))
  {
    var tree := TreePoints(rows);
    var enriched := StageA(rows, cfg, nndOf);
    assert enriched == MapSeq(rows, EnrichWith(nndOf));
    var sh := Globals(tree, enriched);
    GlobalsAligned(rows, cfg, nndOf);
    var k := StageBSliceCount(|enriched|, cfg.coreCount, cfg.taskLength);
    StageBIsSliceFree(enriched, k, sh, num);
    KeptEmpty(rows, nndOf);
    var slices := SliceFrame(enriched, k);
    Merge(MapSeq(slices, (s: seq<Enriched>) => GauntletAtts(s, sh, num)))
  }

  // ----- stage B as written -----

  /** `multi_gauntlet_atts` as the source writes it. `bounds` gives an empty
      geometry a tuple one element short. If every kept row of the slice has
      such a geometry, the frame built from the tuples has four columns, the
      five-column assignment raises, and the catch-all handler returns
      nothing. If one kept row has coordinates, the frame has five columns and
      the short tuples leave `geom_count` missing, which is what
      `GauntletAtts` computes. */
  function GauntletAttsAsWritten(slice: seq<Enriched>, sh: Shared, num: Numerics): (r: Option<seq<Feature>>)
    ensures r.None? <==> forall j :: 0 <= j < |slice| ==> !slice[j].row.HasShape()
    ensures r.Some? ==> r == GauntletAtts(slice, sh, num)
  {
    if forall j :: 0 <= j < |slice| ==> !slice[j].row.HasShape() then None
    else GauntletAtts(slice, sh, num)
  }

  /** Stage B with the as-written worker. It fails exactly when no row has a
      non-empty geometry: a frame of null and empty geometries only. */
  function StageBAsWritten(enriched: seq<Enriched>, k: nat, sh: Shared, num: Numerics): (r: Result<seq<Feature>, PipelineError>)
    requires k >= 1
    ensures r.Err? <==> forall j :: 0 <= j < |enriched| ==> !enriched[j].row.HasShape()
  {
    var slices := SliceFrame(enriched, k);
    SliceFrameConcat(enriched, k);
    AnyPart(enriched, slices, Shaped);
    Merge(MapSeq(slices, (s: seq<Enriched>) => GauntletAttsAsWritten(s, sh, num)))
  }

  /** The row has a non-empty geometry. */
  predicate Shaped(e: Enriched)
  {
    e.row.HasShape()
  }

  /** `Run` with the as-written stage-B worker. Unlike `Run`, it also fails
      when every geometry is empty rather than null. */
  function RunAsWritten(rows: seq<Building>, cfg: Config, nndOf: Point -> real, num: Numerics): (r: Result<seq<Feature>, PipelineError>)
    requires cfg.Valid()
    ensures r.Err? <==> forall i :: 0 <= i < |rows| ==> !rows[i].HasShape()
  {
    var enriched := StageA(rows, cfg, nndOf);
    var sh := Globals(TreePoints(rows), enriched);
    StageBAsWritten(enriched, StageBSliceCount(|enriched|, cfg.coreCount, cfg.taskLength), sh, num)
  }

  /** A one-triangle footprint next to an empty one. */
  function TriangleAndEmpty(): seq<Building>
  {
    [Building(1, Some(Polygon([[[0.0, 0.0], [1.0, 0.0], [0.0, 1.0], [0.0, 0.0]]])), 0.3, 0.3, 0.5),
     Building(2, Some(Polygon([])), 0.0, 0.0, 0.0)]
  }

  /** Both rows pass the null filter; only the first has coordinates. */
  lemma TriangleAndEmptyRows(nndOf: Point -> real, cfg: Config)
    requires cfg.Valid()
    ensures var e := StageA(TriangleAndEmpty(), cfg, nndOf);
      |e| == 2 && e[0].row.HasShape() && !e[1].row.HasShape() && e[1].row.geom.Some?
  {
    var rows := TriangleAndEmpty();
    assert rows[0].HasShape() && !rows[1].HasShape();
  }

  /** Two rows that both pass the null filter, the first with coordinates,
      in a single slice: the worker keeps both. */
  lemma PairInOneSlice(pair: seq<Enriched>, sh: Shared, num: Numerics)
    requires |pair| == 2 && pair[0].row.HasShape() && pair[1].row.geom.Some?
    ensures var r := StageBAsWritten(pair, 1, sh, num);
      r.Ok? && |r.value| == 2
  {
    var slices := SliceFrame(pair, 1);
    assert slices[0] == pair;
    var outs := MapSeq(slices, (s: seq<Enriched>) => GauntletAttsAsWritten(s, sh, num));
    assert outs[0].Some?;
    FilterMapTotal(pair, Keep);
    var v := outs[0].value;
    assert |v| == 2;
    assert Somes(outs) == [v] by {
      assert outs[..0] == [];
    }
    assert Flatten([v]) == v by {
      assert [v][..0] == [];
    }
  }

  /** The same two rows in two slices, the second row without coordinates:
      the worker on the second slice returns nothing, and one row is left. */
  lemma PairInTwoSlices(pair: seq<Enriched>, sh: Shared, num: Numerics)
    requires |pair| == 2 && pair[0].row.HasShape() && !pair[1].row.HasShape()
    ensures var r := StageBAsWritten(pair, 2, sh, num);
      r.Ok? && |r.value| == 1
  {
    var slices := SliceFrame(pair, 2);
    assert StartIndex(2, 2)[1] == 1;
    assert slices[0] == [pair[0]] && slices[1] == [pair[1]];
    var outs := MapSeq(slices, (s: seq<Enriched>) => GauntletAttsAsWritten(s, sh, num));
    assert outs[0].Some? && outs[1].None?;
    FilterMapTotal([pair[0]], Keep);
    var v := outs[0].value;
    assert |v| == 1;
    assert Somes(outs) == [v] by {
      assert outs[..1][..0] == [];
      assert Somes(outs[..1]) == [v];
    }
    assert Flatten([v]) == v by {
      assert [v][..0] == [];
    }
  }

  /** One core, task length 2: a single slice holds both rows, and both reach
      the output. */
  lemma OneCoreKeepsBoth(nndOf: Point -> real, num: Numerics)
    ensures var one := RunAsWritten(TriangleAndEmpty(), Config(1, 2), nndOf, num);
      one.Ok? && |one.value| == 2
  {
    var e := StageA(TriangleAndEmpty(), Config(1, 2), nndOf);
    TriangleAndEmptyRows(nndOf, Config(1, 2));
    assert StageBSliceCount(2, 1, 2) == 1;
    PairInOneSlice(e, Globals(TreePoints(TriangleAndEmpty()), e), num);
  }

  /** Two cores, task length 2: each row gets its own slice, and the row with
      the empty geometry is lost. */
  lemma TwoCoresLoseEmpty(nndOf: Point -> real, num: Numerics)
    ensures var two := RunAsWritten(TriangleAndEmpty(), Config(2, 2), nndOf, num);
      two.Ok? && |two.value| == 1
  {
    var e := StageA(TriangleAndEmpty(), Config(2, 2), nndOf);
    TriangleAndEmptyRows(nndOf, Config(2, 2));
    assert StageBSliceCount(2, 2, 2) == 2;
    PairInTwoSlices(e, Globals(TreePoints(TriangleAndEmpty()), e), num);
  }

  /** Whether the empty geometry survives depends on the core count in the
      source as written; the corrected pipeline keeps it for either count. */
  lemma EmptyGeometryLostAlone(nndOf: Point -> real, num: Numerics)
    ensures var one := RunAsWritten(TriangleAndEmpty(), Config(1, 2), nndOf, num);
      one.Ok? && |one.value| == 2
    ensures var two := RunAsWritten(TriangleAndEmpty(), Config(2, 2), nndOf, num);
      two.Ok? && |two.value| == 1
    ensures var fixed := Run(TriangleAndEmpty(), Config(2, 2), nndOf, num);
      fixed.Ok? && |fixed.value| == 2
  {
    OneCoreKeepsBoth(nndOf, num);
    TwoCoresLoseEmpty(nndOf, num);
    TriangleAndEmptyPresent();
    RunKeepsEveryGeometry(TriangleAndEmpty(), Config(2, 2), nndOf, num);
  }

  /** Neither row of the example has a null geometry. */
  lemma TriangleAndEmptyPresent()
    ensures |TriangleAndEmpty()| == 2
    ensures forall i :: 0 <= i < |TriangleAndEmpty()| ==> TriangleAndEmpty()[i].geom.Some?
  {
  }

  /** When every row has a geometry, the pipeline keeps every row, however
      the rows are sliced. */
  lemma RunKeepsEveryGeometry(rows: seq<Building>, cfg: Config, nndOf: Point -> real, num: Numerics)
    requires cfg.Valid() && |rows| > 0
    requires forall i :: 0 <= i < |rows| ==> rows[i].geom.Some?
    ensures var r := Run(rows, cfg, nndOf, num);
      r.Ok? && |r.value| == |rows|
  {
    var whole := MapSeq(rows, EnrichWith(nndOf));
    forall j | 0 <= j < |whole|
      ensures Keep(whole[j]).Some?
    {
      assert whole[j] == EnrichWith(nndOf)(rows[j]);
    }
    FilterMapTotal(whole, Keep);
    assert rows[0].geom.Some?;
  }

  // ----- reference and properties -----

  /** The shared state computed directly from the input, without any slicing:
      index point i, its nearest-neighbour distance, its size. */
  function ReferenceGlobals(rows: seq<Building>, nndOf: Point -> real): Shared
  {
    var tree := TreePoints(rows);
    Snapshot(tree, MapSeq(tree, nndOf), MapSeq(rows, (b: Building) => b.Sqft()))
  }

  /** The feature table computed row by row over the whole input, without any
      slicing: one feature row per building with a geometry, in input order. */
  function Reference(rows: seq<Building>, nndOf: Point -> real, num: Numerics): seq<Feature>
  {
    var kept := FilterMap(MapSeq(rows, EnrichWith(nndOf)), Keep);
    MapSeq(kept, AttributesWith(ReferenceGlobals(rows, nndOf), num))
  }

  /** The snapshot taken from stage A is aligned with the index: entry i of
      `all_NND` and `all_sqft` belongs to index point i. */
  lemma GlobalsAligned(rows: seq<Building>, cfg: Config, nndOf: Point -> real)
    requires cfg.Valid()
    ensures var sh := Globals(TreePoints(rows), StageA(rows, cfg, nndOf));
      && sh == ReferenceGlobals(rows, nndOf)
      && forall i :: 0 <= i < |rows| ==>
           sh.points[i] == rows[i].Centroid() && sh.nnd[i] == nndOf(sh.points[i]) && sh.sqft[i] == rows[i].Sqft()
  {
    var tree := TreePoints(rows);
    var enriched := StageA(rows, cfg, nndOf);
    var sh := Globals(tree, enriched);
    var ref := ReferenceGlobals(rows, nndOf);
    assert sh.nnd == ref.nnd;
    assert sh.sqft == ref.sqft;
  }

  /** Stage B on its own: however the rows are sliced, merging the worker
      results gives the attributes of the rows with a geometry, in order, and
      fails only when there is no such row. */
  lemma StageBIsSliceFree(enriched: seq<Enriched>, k: nat, sh: Shared, num: Numerics)
    requires k >= 1
    ensures var kept := FilterMap(enriched, Keep);
      Merge(MapSeq(SliceFrame(enriched, k), (s: seq<Enriched>) => GauntletAtts(s, sh, num))) ==
        if |kept| == 0 then Err(NothingToConcatenate) else Ok(MapSeq(kept, AttributesWith(sh, num)))
  {
    var slices := SliceFrame(enriched, k);
    SliceFrameConcat(enriched, k);
    var results := MapSeq(slices, (s: seq<Enriched>) => GauntletAtts(s, sh, num));
    MergeFiltered(enriched, slices, results, Keep, AttributesWith(sh, num));
  }

  /** No row survives the null-geometry filter exactly when every geometry is null. */
  lemma KeptEmpty(rows: seq<Building>, nndOf: Point -> real)
    ensures |FilterMap(MapSeq(rows, EnrichWith(nndOf)), Keep)| == 0 <==>
            forall i :: 0 <= i < |rows| ==> rows[i].geom.None?
  {
    var enriched := MapSeq(rows, EnrichWith(nndOf));
    assert forall j :: 0 <= j < |rows| ==> (Keep(enriched[j]).None? <==> rows[j].geom.None?);
  }

  /** The row of the input a kept stage-A row came from. */
  function SourceRow(l: Located): Building
  {
    l.row.row
  }

  /** The null-geometry filter on input rows. */
  function NonNull(b: Building): Option<Building>
  {
    if b.geom.Some? then Some(b) else None
  }

  lemma KeptRowsInOrder(rows: seq<Building>, nndOf: Point -> real)
    ensures MapSeq(FilterMap(MapSeq(rows, EnrichWith(nndOf)), Keep), SourceRow) == FilterMap(rows, NonNull)
  {
    FilterMapFused(rows, EnrichWith(nndOf), Keep, SourceRow, NonNull);
  }

  /** The final table has one row per input building with a geometry, in
      input order: the identifiers read down the output are those of the
      non-null input rows. */
  lemma FinalRowOrder(rows: seq<Building>, cfg: Config, nndOf: Point -> real, num: Numerics)
    requires cfg.Valid()
    ensures var r := Run(rows, cfg, nndOf, num);
      r.Ok? ==> MapSeq(r.value, (f: Feature) => f.id) == MapSeq(FilterMap(rows, NonNull), (b: Building) => b.id)
  {
    var r := Run(rows, cfg, nndOf, num);
    if r.Ok? {
      assert r.value == Reference(rows, nndOf, num);
      ReferenceIds(rows, nndOf, num);
    }
  }

  /** The identifiers down the unsliced table are those of the non-null input rows. */
  lemma ReferenceIds(rows: seq<Building>, nndOf: Point -> real, num: Numerics)
    ensures MapSeq(Reference(rows, nndOf, num), (f: Feature) => f.id) == MapSeq(FilterMap(rows, NonNull), (b: Building) => b.id)
  {
    KeptRowsInOrder(rows, nndOf);
  }

  /** The radii are non-negative and increasing. */
  lemma RadiiAscending()
    ensures forall i :: 0 <= i < |Radii| ==> Radii[i] >= 0
    ensures forall i :: 0 <= i < |Radii| - 1 ==> Radii[i] <= Radii[i + 1]
  {
    assert Radii[0] == 50 && Radii[1] == 100 && Radii[2] == 250 && Radii[3] == 500 && Radii[4] == 1000;
  }

  /** At an indexed point the counts along the five radii start at one and
      never decrease. */
  lemma RadiiCounts(sh: Shared, j: nat, num: Numerics)
    requires j < |sh.points| && sh.points[j].Point?
    ensures var ws := MapSeq(Radii, WindowsAt(sh, sh.points[j], num));
      forall i :: 0 <= i < |Radii| ==>
        ws[i].count >= 1 && (i + 1 < |Radii| ==> ws[i].count <= ws[i + 1].count)
  {
    var q := sh.points[j];
    var ws := MapSeq(Radii, WindowsAt(sh, q, num));
    RadiiAscending();
    forall i | 0 <= i < |Radii|
      ensures ws[i].count >= 1 && (i + 1 < |Radii| ==> ws[i].count <= ws[i + 1].count)
    {
      SelfCounted(sh, j, Radii[i], num);
      if i + 1 < |Radii| {
        CountNondecreasing(sh, q, Radii[i], Radii[i + 1], num);
      }
    }
  }

  /** At a NaN point every window is empty. */
  lemma NaNRadiiCounts(sh: Shared, num: Numerics)
    ensures var ws := MapSeq(Radii, WindowsAt(sh, NotANumber, num));
      forall i :: 0 <= i < |Radii| ==> ws[i].count == 0
  {
    forall i | 0 <= i < |Radii|
      ensures Nni(sh, NotANumber, Radii[i], num).count == 0
    {
      NaNQueryEmpty(sh, Radii[i], num);
    }
  }

  /** In the unsliced table, a row's windows count something exactly when
      its geometry has a ring count, and the counts never decrease along the
      radii. */
  lemma ReferenceWindowCounts(rows: seq<Building>, nndOf: Point -> real, num: Numerics)
    ensures var out := Reference(rows, nndOf, num);
      forall m, i :: 0 <= m < |out| && 0 <= i < |Radii| ==>
        (out[m].windows[i].count >= 1 <==> out[m].counts.geomCount.Some?) &&
        (i + 1 < |Radii| ==> out[m].windows[i].count <= out[m].windows[i + 1].count)
  {
    var sh := ReferenceGlobals(rows, nndOf);
    var enriched := MapSeq(rows, EnrichWith(nndOf));
    var kept := FilterMap(enriched, Keep);
    var out := Reference(rows, nndOf, num);
    forall m | 0 <= m < |out|
      ensures out[m].windows == MapSeq(Radii, WindowsAt(sh, kept[m].row.row.Centroid(), num))
      ensures out[m].counts == Counts(kept[m].geom) && kept[m].row.row.geom == Some(kept[m].geom)
      ensures exists j :: 0 <= j < |sh.points| && kept[m].row.row.Centroid() == sh.points[j]
    {
      var j :| 0 <= j < |enriched| && Keep(enriched[j]) == Some(kept[m]);
    }
    forall m | 0 <= m < |out|
      ensures forall i :: 0 <= i < |Radii| ==>
        (out[m].windows[i].count >= 1 <==> out[m].counts.geomCount.Some?) &&
        (i + 1 < |Radii| ==> out[m].windows[i].count <= out[m].windows[i + 1].count)
    {
      var b := kept[m].row.row;
      var j :| 0 <= j < |sh.points| && b.Centroid() == sh.points[j];
      if b.HasShape() {
        RadiiCounts(sh, j, num);
      } else {
        NaNRadiiCounts(sh, num);
      }
    }
  }

  /** In every output row there are five windows; they count something
      exactly when the row's geometry is not empty (an empty geometry's NaN
      centroid lies in no window), and their counts never decrease along the
      radii 50, 100, 250, 500, 1000. */
  lemma WindowCountsInOutput(rows: seq<Building>, cfg: Config, nndOf: Point -> real, num: Numerics)
    requires cfg.Valid()
    ensures var r := Run(rows, cfg, nndOf, num);
      r.Ok? ==> forall m :: 0 <= m < |r.value| ==>
        |r.value[m].windows| == |Radii| &&
        forall i :: 0 <= i < |Radii| ==>
          (r.value[m].windows[i].count >= 1 <==> r.value[m].counts.geomCount.Some?) &&
          (i + 1 < |Radii| ==> r.value[m].windows[i].count <= r.value[m].windows[i + 1].count)
  {
    var r := Run(rows, cfg, nndOf, num);
    if r.Ok? {
      assert r.value == Reference(rows, nndOf, num);
      ReferenceWindowCounts(rows, nndOf, num);
    }
  }
}

=== FILE: seqs.dfy ===
/** Sequence combinators that stand for the frame operations of the pipeline:
    concatenation of a list of frames, row-wise apply, and row filtering. */
module Seqs {
  import opened Options

  /** In-order concatenation of a list of parts (the row order `pd.concat` produces). */
  function Flatten<T>(ss: seq<seq<T>>): seq<T>
  {
    if |ss| == 0 then [] else Flatten(ss[..|ss| - 1]) + ss[|ss| - 1]
  }

  /** Sum of the lengths of the parts. */
  function SumLengths<T>(ss: seq<seq<T>>): nat
  {
    if |ss| == 0 then 0 else SumLengths(ss[..|ss| - 1]) + |ss[|ss| - 1]|
  }

  /** Applies `f` to every element, keeping positions. */
  function MapSeq<T, U>(s: seq<T>, f: T -> U): (r: seq<U>)
    ensures |r| == |s|
    ensures forall i :: 0 <= i < |s| ==> r[i] == f(s[i])
  {
    seq(|s|, i requires 0 <= i < |s| => f(s[i]))
  }

  /** Keeps, in order, the values `f` produces for the elements it accepts. */
  function FilterMap<T, U>(s: seq<T>, f: T -> Option<U>): (r: seq<U>)
    ensures |r| <= |s|
    ensures forall k :: 0 <= k < |r| ==> exists j :: 0 <= j < |s| && f(s[j]) == Some(r[k])
    ensures |r| == 0 <==> forall j :: 0 <= j < |s| ==> f(s[j]).None?
  {
    if |s| == 0 then []
    else
      var init := FilterMap(s[..|s| - 1], f);
      assert forall j :: 0 <= j < |s| - 1 ==> s[..|s| - 1][j] == s[j];
      match f(s[|s| - 1])
      case Some(u) => init + [u]
      case None => init
  }

  /** The values of the present entries, in order. */
  function Somes<T>(os: seq<Option<T>>): (r: seq<T>)
    ensures |r| == 0 <==> forall j :: 0 <= j < |os| ==> os[j].None?
  {
    if |os| == 0 then []
    else
      var init := Somes(os[..|os| - 1]);
      assert forall j :: 0 <= j < |os| - 1 ==> os[..|os| - 1][j] == os[j];
      match os[|os| - 1]
      case Some(v) => init + [v]
      case None => init
  }

  lemma {:induction false} FlattenAppend<T>(a: seq<seq<T>>, b: seq<seq<T>>)
    ensures Flatten(a + b) == Flatten(a) + Flatten(b)
    decreases |b|
  {
    if |b| == 0 {
      assert a + b == a;
    } else {
      var b' := b[..|b| - 1];
      assert (a + b)[..|a + b| - 1] == a + b';
      FlattenAppend(a, b');
    }
  }

  lemma {:induction false} FilterMapAppend<T, U>(a: seq<T>, b: seq<T>, f: T -> Option<U>)
    ensures FilterMap(a + b, f) == FilterMap(a, f) + FilterMap(b, f)
    decreases |b|
  {
    if |b| == 0 {
      assert a + b == a;
    } else {
      var b' := b[..|b| - 1];
      assert (a + b)[..|a + b| - 1] == a + b';
      FilterMapAppend(a, b', f);
    }
  }

  /** The number of elements across the parts is the length of their concatenation. */
  lemma {:induction false} SumLengthsIsFlattenLength<T>(ss: seq<seq<T>>)
    ensures SumLengths(ss) == |Flatten(ss)|
  {
    if |ss| > 0 {
      SumLengthsIsFlattenLength(ss[..|ss| - 1]);
    }
  }

  /** Mapping every part and concatenating equals concatenating and then mapping. */
  lemma {:induction false} FlattenMapped<T, U>(ss: seq<seq<T>>, ts: seq<seq<U>>, f: T -> U)
    requires |ts| == |ss|
    requires forall i :: 0 <= i < |ss| ==> ts[i] == MapSeq(ss[i], f)
    ensures Flatten(ts) == MapSeq(Flatten(ss), f)
  {
    if |ss| > 0 {
      var n := |ss| - 1;
      FlattenMapped(ss[..n], ts[..n], f);
      assert MapSeq(Flatten(ss[..n]) + ss[n], f) == MapSeq(Flatten(ss[..n]), f) + MapSeq(ss[n], f);
    }
  }

  /** Filtering every part and concatenating equals concatenating and then filtering. */
  lemma {:induction false} FlattenFiltered<T, U>(ss: seq<seq<T>>, ts: seq<seq<U>>, f: T -> Option<U>)
    requires |ts| == |ss|
    requires forall i :: 0 <= i < |ss| ==> ts[i] == FilterMap(ss[i], f)
    ensures Flatten(ts) == FilterMap(Flatten(ss), f)
  {
    if |ss| > 0 {
      var n := |ss| - 1;
      FlattenFiltered(ss[..n], ts[..n], f);
      FilterMapAppend(Flatten(ss[..n]), ss[n], f);
    }
  }

  /** Skipping the absent entries and concatenating the rest is the same as
      concatenating with every absent entry read as an empty part. */
  lemma {:induction false} FlattenSomes<T>(os: seq<Option<seq<T>>>, ts: seq<seq<T>>)
    requires |ts| == |os|
    requires forall i :: 0 <= i < |os| ==> ts[i] == (if os[i].Some? then os[i].value else [])
    ensures Flatten(Somes(os)) == Flatten(ts)
  {
    if |os| > 0 {
      var n := |os| - 1;
      FlattenSomes(os[..n], ts[..n]);
      if os[n].Some? {
        FlattenAppend(Somes(os[..n]), [os[n].value]);
      } else {
        assert Flatten(ts) == Flatten(ts[..n]) + [];
      }
    }
  }

  lemma {:induction false} FlattenEmpty<T>(ss: seq<seq<T>>)
    ensures Flatten(ss) == [] <==> forall i :: 0 <= i < |ss| ==> ss[i] == []
  {
    if |ss| > 0 {
      FlattenEmpty(ss[..|ss| - 1]);
    }
  }

  /** Every entry is absent exactly when the concatenation of the parts, each
      absent entry read as an empty part, is empty. */
  lemma AllAbsent<T>(os: seq<Option<seq<T>>>, ts: seq<seq<T>>)
    requires |ts| == |os|
    requires forall i :: 0 <= i < |os| ==> (os[i].None? <==> ts[i] == [])
    ensures (forall i :: 0 <= i < |os| ==> os[i].None?) <==> Flatten(ts) == []
  {
    FlattenEmpty(ts);
  }

  /** Filtering and mapping each part on its own, reporting an empty outcome
      as absent, then concatenating the present outcomes, is filtering and
      mapping the whole; every outcome is absent exactly when nothing of the
      whole passes the filter. */
  lemma MergeFiltered<T, L, U>(whole: seq<T>, parts: seq<seq<T>>, outcomes: seq<Option<seq<U>>>,
                               f: T -> Option<L>, g: L -> U)
    requires Flatten(parts) == whole
    requires |outcomes| == |parts|
    requires forall i :: 0 <= i < |parts| ==>
      outcomes[i] == (var t := MapSeq(FilterMap(parts[i], f), g); if |t| == 0 then None else Some(t))
    ensures Flatten(Somes(outcomes)) == MapSeq(FilterMap(whole, f), g)
    ensures (forall i :: 0 <= i < |outcomes| ==> outcomes[i].None?) <==> |FilterMap(whole, f)| == 0
  {
    var us := MapSeq(parts, (s: seq<T>) => FilterMap(s, f));
    var ts := MapSeq(us, (u: seq<L>) => MapSeq(u, g));
    OutcomeParts(parts, outcomes, us, ts, f, g);
    FlattenSomes(outcomes, ts);
    AllAbsent(outcomes, ts);
    FlattenMapped(us, ts, g);
    FlattenFiltered(parts, us, f);
  }

  /** Each outcome of `MergeFiltered`, read as a possibly empty part. */
  lemma OutcomeParts<T, L, U>(parts: seq<seq<T>>, outcomes: seq<Option<seq<U>>>,
                              us: seq<seq<L>>, ts: seq<seq<U>>, f: T -> Option<L>, g: L -> U)
    requires |outcomes| == |parts| == |us| == |ts|
    requires forall i :: 0 <= i < |parts| ==>
      outcomes[i] == (var t := MapSeq(FilterMap(parts[i], f), g); if |t| == 0 then None else Some(t))
    requires forall i :: 0 <= i < |us| ==> us[i] == FilterMap(parts[i], f)
    requires forall i :: 0 <= i < |ts| ==> ts[i] == MapSeq(us[i], g)
    ensures forall i :: 0 <= i < |parts| ==> ts[i] == (if outcomes[i].Some? then outcomes[i].value else [])
    ensures forall i :: 0 <= i < |parts| ==> (outcomes[i].None? <==> ts[i] == [])
  {
  }

  /** Mapping, filtering and mapping again is one filter when that filter
      agrees with the composition on every element. */
  lemma {:induction false} FilterMapFused<A, B, C, D>(xs: seq<A>, e: A -> B, f: B -> Option<C>, g: C -> D, h: A -> Option<D>)
    requires forall i :: 0 <= i < |xs| ==>
      h(xs[i]) == (match f(e(xs[i])) case None => None case Some(c) => Some(g(c)))
    ensures MapSeq(FilterMap(MapSeq(xs, e), f), g) == FilterMap(xs, h)
  {
    if |xs| > 0 {
      var n := |xs| - 1;
      var init := xs[..n];
      assert forall i :: 0 <= i < n ==> init[i] == xs[i];
      FilterMapFused(init, e, f, g, h);
      var ys := MapSeq(xs, e);
      assert ys[..n] == MapSeq(init, e);
      var a := FilterMap(ys[..n], f);
      var b: seq<C> := match f(ys[n]) case None => [] case Some(c) => [c];
      assert FilterMap(ys, f) == a + b;
      assert MapSeq(a + b, g) == MapSeq(a, g) + MapSeq(b, g);
    }
  }

  /** When `f` keeps every element, filtering keeps the length. */
  lemma {:induction false} FilterMapTotal<T, U>(s: seq<T>, f: T -> Option<U>)
    requires forall j :: 0 <= j < |s| ==> f(s[j]).Some?
    ensures |FilterMap(s, f)| == |s|
  {
    if |s| > 0 {
      var init := s[..|s| - 1];
      assert forall j :: 0 <= j < |init| ==> init[j] == s[j];
      FilterMapTotal(init, f);
    }
  }

  /** An element of a concatenation is an element of one of its parts, and
      every element of a part is in the concatenation. */
  lemma {:induction false} FlattenMembers<T>(ss: seq<seq<T>>, x: T)
    ensures x in Flatten(ss) <==> exists i :: 0 <= i < |ss| && x in ss[i]
  {
    if |ss| > 0 {
      var init := ss[..|ss| - 1];
      FlattenMembers(init, x);
      assert forall i :: 0 <= i < |init| ==> init[i] == ss[i];
    }
  }

  /** Some part holds an element satisfying `p` exactly when the
      concatenation does. */
  lemma AnyPart<T>(whole: seq<T>, parts: seq<seq<T>>, p: T -> bool)
    requires Flatten(parts) == whole
    ensures (exists i, m :: 0 <= i < |parts| && 0 <= m < |parts[i]| && p(parts[i][m])) <==>
            exists j :: 0 <= j < |whole| && p(whole[j])
  {
    if exists j :: 0 <= j < |whole| && p(whole[j]) {
      var j :| 0 <= j < |whole| && p(whole[j]);
      FlattenMembers(parts, whole[j]);
      var i :| 0 <= i < |parts| && whole[j] in parts[i];
      var m :| 0 <= m < |parts[i]| && parts[i][m] == whole[j];
    }
    if exists i, m :: 0 <= i < |parts| && 0 <= m < |parts[i]| && p(parts[i][m]) {
      var i, m :| 0 <= i < |parts| && 0 <= m < |parts[i]| && p(parts[i][m]);
      FlattenMembers(parts, parts[i][m]);
    }
  }
}

=== FILE: shape.dfy ===
/** The vertex and ring counting of `bounds`, read off the GeoJSON-style
    coordinate nesting of a polygon or multipolygon. */
module Shape {
  import opened Options
  import opened Seqs

  /** One coordinate tuple: (x, y), or (x, y, z) for a 3-D geometry. */
  type Coord = seq<real>

  /** A closed ring; its last coordinate repeats its first. */
  type Ring = seq<Coord>

  /** A footprint geometry by its coordinate nesting: a polygon is its list of
      rings (exterior first); a multipolygon is its list of such polygons. The
      empty geometry of either kind has an empty list. */
  datatype Geometry =
    | Polygon(rings: seq<Ring>)
    | MultiPolygon(polygons: seq<seq<Ring>>)
  {
    /** True when the coordinate list has no element 0. */
    predicate IsEmpty() {
      match this
      case Polygon(rings) => |rings| == 0
      case MultiPolygon(polygons) => |polygons| == 0
    }
  }

  /** The two integer outputs of `bounds`. `geomCount` is absent for an empty
      geometry, whose result tuple is one element short. */
  datatype ShapeCounts = ShapeCounts(vertexCount: nat, geomCount: Option<nat>)

  /** Counts taken from element 0 of the coordinate list: the sum of the
      lengths of its items, and its own length. Element 0 is the exterior ring
      of a polygon (its items are coordinate tuples) and the ring list of the
      first polygon of a multipolygon (its items are rings). */
  function Counts(g: Geometry): (c: ShapeCounts)
    ensures c.geomCount.None? <==> g.IsEmpty()
    ensures c.geomCount.None? ==> c.vertexCount == 0
    ensures c.geomCount.Some? && g.Polygon? ==> c.geomCount.value == |g.rings[0]|
    ensures c.geomCount.Some? && g.MultiPolygon? ==> c.geomCount.value == |g.polygons[0]|
  {
    match g
    case Polygon(rings) =>
      if |rings| == 0 then ShapeCounts(0, None)
      else ShapeCounts(SumLengths(rings[0]), Some(|rings[0]|))
    case MultiPolygon(polygons) =>
      if |polygons| == 0 then ShapeCounts(0, None)
      else ShapeCounts(SumLengths(polygons[0]), Some(|polygons[0]|))
  }

  /** Every coordinate tuple of the ring has `dim` components. */
  predicate HasDimension(ring: Ring, dim: nat)
  {
    forall i :: 0 <= i < |ring| ==> |ring[i]| == dim
  }

  lemma {:induction false} UniformSumLengths(ring: Ring, dim: nat)
    requires HasDimension(ring, dim)
    ensures SumLengths(ring) == dim * |ring|
  {
    if |ring| > 0 {
      var init := ring[..|ring| - 1];
      assert HasDimension(init, dim);
      UniformSumLengths(init, dim);
      assert dim * |ring| == dim * |init| + dim;
    }
  }

  /** For a polygon the "vertex count" is the number of coordinate components
      of the exterior ring (dimension times points, closing point included),
      and the "geometry count" is the number of exterior points. Holes are not
      looked at. */
  lemma PolygonCounts(exterior: Ring, holes: seq<Ring>, dim: nat)
    requires HasDimension(exterior, dim)
    ensures Counts(Polygon([exterior] + holes)) == ShapeCounts(dim * |exterior|, Some(|exterior|))
  {
    UniformSumLengths(exterior, dim);
  }

  /** For a multipolygon the vertex count is the number of points over all
      rings of the first polygon and the geometry count is its ring count;
      later polygons are not looked at. */
  lemma MultiPolygonCounts(first: seq<Ring>, rest: seq<seq<Ring>>)
    ensures Counts(MultiPolygon([first] + rest)) == ShapeCounts(|Flatten(first)|, Some(|first|))
  {
    SumLengthsIsFlattenLength(first);
  }

  /** The same single-ring footprint is counted differently depending on
      whether it is stored as a polygon or as a one-part multipolygon. */
  lemma WrapperChangesCounts(ring: Ring, dim: nat)
    requires HasDimension(ring, dim)
    ensures Counts(Polygon([ring])).vertexCount == dim * Counts(MultiPolygon([[ring]])).vertexCount
    ensures Counts(Polygon([ring])).geomCount == Some(|ring|)
    ensures Counts(MultiPolygon([[ring]])).geomCount == Some(1)
  {
    PolygonCounts(ring, [], dim);
    assert [ring] + [] == [ring];
    MultiPolygonCounts([ring], []);
    assert [[ring]] + [] == [[ring]];
    assert Flatten([ring]) == ring by {
      assert [ring][..0] == [];
    }
  }
}

=== FILE: window.dfy ===
/** The scan-window statistics of `nni`: a fixed-radius query on the point
    index around a building's centroid, and aggregates over the precomputed
    nearest-neighbour distances and sizes of the buildings it matched. */
module Window {
  import opened Options
  import opened Seqs

  /** An indexed centroid. `NotANumber` is the centroid of a null or empty
      geometry, whose coordinates are NaN; every comparison with it is false. */
  datatype Point = Point(x: real, y: real) | NotANumber

  function SqDist(p: Point, q: Point): (d: real)
    requires p.Point? && q.Point?
    ensures d >= 0.0
  {
    (p.x - q.x) * (p.x - q.x) + (p.y - q.y) * (p.y - q.y)
  }

  /** `p` lies in the closed disc of radius `buff` around `q`. A negative
      radius matches nothing, and neither does a NaN point, as either the
      indexed point or the query point. */
  predicate Within(p: Point, q: Point, buff: int)
  {
    p.Point? && q.Point? && buff >= 0 && SqDist(p, q) <= (buff * buff) as real
  }

  predicate Increasing(s: seq<nat>)
  {
    forall i, j :: 0 <= i < j < |s| ==> s[i] < s[j]
  }

  /** The ball query: positions of the indexed points within `buff` of `q`.
      The model lists them in increasing order. The tree query does not
      promise an order, but everything computed from the result (its length,
      sums, and the mean, standard deviation, minimum and maximum of the
      selected values) is the same for every order. */
  function Ball(pts: seq<Point>, q: Point, buff: int): (r: seq<nat>)
    ensures Increasing(r)
    ensures forall k :: 0 <= k < |r| ==> r[k] < |pts|
    ensures forall j: nat :: j in r <==> j < |pts| && Within(pts[j], q, buff)
  {
    if |pts| == 0 then []
    else
      var n := |pts| - 1;
      var init := Ball(pts[..n], q, buff);
      assert forall j :: 0 <= j < n ==> pts[..n][j] == pts[j];
      init + (if Within(pts[n], q, buff) then [n] else [])
  }

  /** No indexed point lies within `buff` of `q`. */
  predicate EmptyWindow(pts: seq<Point>, q: Point, buff: int)
  {
    forall j :: 0 <= j < |pts| ==> !Within(pts[j], q, buff)
  }

  /** The ball is empty exactly when no indexed point lies in the window. */
  lemma BallEmpty(pts: seq<Point>, q: Point, buff: int)
    ensures |Ball(pts, q, buff)| == 0 <==> EmptyWindow(pts, q, buff)
  {
    var r := Ball(pts, q, buff);
    if |r| > 0 {
      assert r[0] in r;
    }
  }

  /** The elements of `s` at the given positions. */
  function Select<T>(s: seq<T>, idx: seq<nat>): (r: seq<T>)
    requires forall k :: 0 <= k < |idx| ==> idx[k] < |s|
    ensures |r| == |idx|
    ensures forall k :: 0 <= k < |idx| ==> r[k] == s[idx[k]]
  {
    seq(|idx|, k requires 0 <= k < |idx| => s[idx[k]])
  }

  function Sum(xs: seq<real>): real
  {
    if |xs| == 0 then 0.0 else Sum(xs[..|xs| - 1]) + xs[|xs| - 1]
  }

  function Minimum(xs: seq<real>): (m: real)
    requires |xs| >= 1
    ensures forall k :: 0 <= k < |xs| ==> m <= xs[k]
    ensures exists k :: 0 <= k < |xs| && m == xs[k]
  {
    if |xs| == 1 then xs[0]
    else
      var rest := Minimum(xs[..|xs| - 1]);
      assert forall k :: 0 <= k < |xs| - 1 ==> xs[..|xs| - 1][k] == xs[k];
      if xs[|xs| - 1] < rest then xs[|xs| - 1] else rest
  }

  function Maximum(xs: seq<real>): (m: real)
    requires |xs| >= 1
    ensures forall k :: 0 <= k < |xs| ==> xs[k] <= m
    ensures exists k :: 0 <= k < |xs| && m == xs[k]
  {
    if |xs| == 1 then xs[0]
    else
      var rest := Maximum(xs[..|xs| - 1]);
      assert forall k :: 0 <= k < |xs| - 1 ==> xs[..|xs| - 1][k] == xs[k];
      if xs[|xs| - 1] > rest then xs[|xs| - 1] else rest
  }

  /** Squared deviation of each value from `mean`. */
  function SqDevs(xs: seq<real>, mean: real): (ds: seq<real>)
    ensures |ds| == |xs|
    ensures forall k :: 0 <= k < |xs| ==> ds[k] == SqDev(xs[k], mean)
  {
    seq(|xs|, k requires 0 <= k < |xs| => SqDev(xs[k], mean))
  }

  function SqDev(x: real, mean: real): (d: real)
    ensures d >= 0.0
  {
    SquareNonNegative(x - mean);
    (x - mean) * (x - mean)
  }

  /** Squared distances from `q` to each point. A distance involving a NaN
      point is NaN; it never lies in a window, so 0 stands in for it here. */
  function SqDists(ps: seq<Point>, q: Point): (ds: seq<real>)
    ensures |ds| == |ps|
    ensures forall k :: 0 <= k < |ps| ==> ds[k] == if ps[k].Point? && q.Point? then SqDist(ps[k], q) else 0.0
  {
    seq(|ps|, k requires 0 <= k < |ps| => if ps[k].Point? && q.Point? then SqDist(ps[k], q) else 0.0)
  }

  /** Reference definition of a window aggregate that does not go through the
      ball query: scan every indexed position and add the value of each one
      within `buff` of `q`. */
  function WindowSum(vals: seq<real>, pts: seq<Point>, q: Point, buff: int): real
    requires |pts| <= |vals|
  {
    if |pts| == 0 then 0.0
    else
      var n := |pts| - 1;
      WindowSum(vals, pts[..n], q, buff) + (if Within(pts[n], q, buff) then vals[n] else 0.0)
  }

  /** The facilities the source takes from its numeric library: the constant
      pi and the square root. Both are left uninterpreted. */
  datatype Numerics = Numerics(pi: real, sqrt: real -> real)

  /** The result of a floating-point division: a finite value, or the infinity
      or not-a-number that numpy yields for a zero divisor. */
  datatype Quot = Finite(value: real) | NonFinite

  function Divide(a: real, b: real): (q: Quot)
    ensures q.Finite? <==> b != 0.0
    ensures q.Finite? ==> q.value * b == a
  {
    if b == 0.0 then NonFinite else Finite(a / b)
  }

  /** The read-only state every stage-B worker shares: the indexed centroids and
      the two per-building arrays `all_NND` and `all_sqft`, read by position. */
  datatype Snapshot = Snapshot(points: seq<Point>, nnd: seq<real>, sqft: seq<real>)
  {
    predicate Aligned() {
      |nnd| == |points| && |sqft| == |points|
    }
  }

  /** A snapshot whose arrays have one entry per indexed point. */
  type Shared = s: Snapshot | s.Aligned() witness Snapshot([], [], [])

  /** Size statistics of the window (pandas `describe`: mean, sample standard
      deviation, min, max) and the coefficient of variation std / mean. */
  datatype SizeStats = SizeStats(mean: real, std: real, min: real, max: real, cv: Quot)

  /** The ten-value tuple of `nni`; `sizes` is absent for an empty window. */
  datatype WindowStats = WindowStats(
    count: nat, omd: real, emd: real, nni: Quot, intensity: real, sizes: Option<SizeStats>)

  /** What the statistics of a window holding more than one point mean: the
      observed mean distance and the size mean are the window averages of
      `all_NND` and `all_sqft`; the size extremes are attained in the window and
      bound every size in it; the index and the coefficient of variation are the
      quotients omd / emd and std / mean. */
  ghost predicate CrowdedWindow(sh: Shared, q: Point, buff: int, num: Numerics, w: WindowStats)
  {
    && w.count > 1
    && w.sizes.Some?
    && w.omd == WindowSum(sh.nnd, sh.points, q, buff) / (w.count as real)
    && w.emd == ExpectedDistance(num, buff, w.count)
    && w.nni == Divide(w.omd, w.emd)
    && w.intensity == Intensity(num.pi, WindowSum(SqDists(sh.points, q), sh.points, q, buff), w.count)
    && (num.pi >= 0.0 ==> w.intensity >= 0.0)
    && var s := w.sizes.value;
      && s.mean == WindowSum(sh.sqft, sh.points, q, buff) / (w.count as real)
      && s.std == SampleStd(num, WindowSum(SqDevs(sh.sqft, s.mean), sh.points, q, buff), w.count)
      && s.min <= s.mean <= s.max
      && (forall j :: 0 <= j < |sh.points| && Within(sh.points[j], q, buff) ==> s.min <= sh.sqft[j] <= s.max)
      && (exists j :: 0 <= j < |sh.points| && Within(sh.points[j], q, buff) && s.min == sh.sqft[j])
      && (exists j :: 0 <= j < |sh.points| && Within(sh.points[j], q, buff) && s.max == sh.sqft[j])
      && s.cv == Divide(s.std, s.mean)
  }

  /** Statistics of the scan window of radius `buff` around `q`.
      Intensity sums the squared distances of the `count` nearest indexed
      points; these are exactly the window's points, since every point outside
      the window is farther from `q` than every point inside. */
  function Nni(sh: Shared, q: Point, buff: int, num: Numerics): (w: WindowStats)
    ensures w.count == |Ball(sh.points, q, buff)|
    ensures w.count == 0 <==> EmptyWindow(sh.points, q, buff)
    ensures w.count <= 1 ==> w.omd == 0.0 && w.emd == 0.0 && w.nni == Finite(0.0) && w.intensity == 0.0
    ensures w.count == 0 <==> w.sizes.None?
    ensures w.count == 1 ==>
      exists j :: 0 <= j < |sh.points| && Within(sh.points[j], q, buff) &&
        w.sizes == Some(SizeStats(sh.sqft[j], 0.0, sh.sqft[j], sh.sqft[j], Finite(0.0)))
    ensures w.count > 1 ==> CrowdedWindow(sh, q, buff, num, w)
  {
    var results := Ball(sh.points, q, buff);
    var cluster := |results|;
    BallEmpty(sh.points, q, buff);
    if cluster == 0 then
      WindowStats(0, 0.0, 0.0, Finite(0.0), 0.0, None)
    else if cluster == 1 then
      Lone(sh, q, buff, results)
    else
      Crowded(sh, q, buff, num, results)
  }

  /** The branch of `Nni` for a window holding one point: no neighbour to
      measure, and the size statistics of that one building. */
  function Lone(sh: Shared, q: Point, buff: int, results: seq<nat>): (w: WindowStats)
    requires results == Ball(sh.points, q, buff) && |results| == 1
    ensures w.count == 1 && w.omd == 0.0 && w.emd == 0.0 && w.nni == Finite(0.0) && w.intensity == 0.0
    ensures exists j :: 0 <= j < |sh.points| && Within(sh.points[j], q, buff) &&
                        w.sizes == Some(SizeStats(sh.sqft[j], 0.0, sh.sqft[j], sh.sqft[j], Finite(0.0)))
  {
    var s := sh.sqft[results[0]];
    assert results[0] in results;
    WindowStats(1, 0.0, 0.0, Finite(0.0), 0.0, Some(SizeStats(s, 0.0, s, s, Finite(0.0))))
  }

  /** The branch of `Nni` for a window holding more than one point. */
  function Crowded(sh: Shared, q: Point, buff: int, num: Numerics, results: seq<nat>): (w: WindowStats)
    requires results == Ball(sh.points, q, buff) && |results| > 1
    ensures w.count == |results|
    ensures CrowdedWindow(sh, q, buff, num, w)
  {
    var cluster := |results|;
    var n := cluster as real;
    var nearDs := SqDists(Select(sh.points, results), q);
    WindowSqDists(sh.points, q, buff);
    SumNonNegative(nearDs);
    var intensity := Intensity(num.pi, Sum(nearDs), cluster);
    var omd := Sum(Select(sh.nnd, results)) / n;
    var emd := ExpectedDistance(num, buff, cluster);
    WindowSumIsBallSum(sh.nnd, sh.points, q, buff);
    WindowStats(cluster, omd, emd, Divide(omd, emd), intensity, Some(Sizes(sh, q, buff, num, results)))
  }

  /** `intensity`: pi times the mean squared distance, from the query point,
      of the `n` nearest indexed points. */
  function Intensity(pi: real, sqDistTotal: real, n: nat): (r: real)
    requires n > 0
    ensures pi >= 0.0 && sqDistTotal >= 0.0 ==> r >= 0.0
  {
    ScaledMeanSign(pi, sqDistTotal, n as real);
    pi * sqDistTotal / (n as real)
  }

  /** `emd`: the expected mean nearest-neighbour distance of `n` points spread
      at random over the disc of radius `buff`. */
  function ExpectedDistance(num: Numerics, buff: int, n: nat): real
    requires n > 0
  {
    0.5 * num.sqrt(num.pi * (buff * buff) as real / (n as real))
  }

  /** The sample standard deviation (divisor n - 1) from a sum of squared deviations. */
  function SampleStd(num: Numerics, sumSqDev: real, n: nat): real
    requires n > 1
  {
    num.sqrt(sumSqDev / (n as real - 1.0))
  }

  /** Size statistics over the window's entries of `all_sqft`. */
  function Sizes(sh: Shared, q: Point, buff: int, num: Numerics, results: seq<nat>): (s: SizeStats)
    requires results == Ball(sh.points, q, buff) && |results| > 1
    ensures s.mean == WindowSum(sh.sqft, sh.points, q, buff) / (|results| as real)
    ensures s.std == SampleStd(num, WindowSum(SqDevs(sh.sqft, s.mean), sh.points, q, buff), |results|)
    ensures s.min <= s.mean <= s.max
    ensures forall j :: 0 <= j < |sh.points| && Within(sh.points[j], q, buff) ==> s.min <= sh.sqft[j] <= s.max
    ensures exists j :: 0 <= j < |sh.points| && Within(sh.points[j], q, buff) && s.min == sh.sqft[j]
    ensures exists j :: 0 <= j < |sh.points| && Within(sh.points[j], q, buff) && s.max == sh.sqft[j]
    ensures s.cv == Divide(s.std, s.mean)
  {
    var cluster := |results|;
    var n := cluster as real;
    var sqfts := Select(sh.sqft, results);
    var mean := Sum(sqfts) / n;
    var std := SampleStd(num, Sum(SqDevs(sqfts, mean)), cluster);
    var lo := Minimum(sqfts);
    var hi := Maximum(sqfts);
    WindowSumIsBallSum(sh.sqft, sh.points, q, buff);
    WindowSqDevs(sh.sqft, sh.points, q, buff, mean);
    MeanBetween(sqfts);
    BallEmpty(sh.points, q, buff);
    WindowExtremes(sh.sqft, sh.points, q, buff);
    SizeStats(mean, std, lo, hi, Divide(std, mean))
  }

  /** The squared distances of the points the ball query selects add up to
      the reference scan of all squared distances within the window. */
  lemma WindowSqDists(pts: seq<Point>, q: Point, buff: int)
    ensures Sum(SqDists(Select(pts, Ball(pts, q, buff)), q)) == WindowSum(SqDists(pts, q), pts, q, buff)
  {
    var r := Ball(pts, q, buff);
    assert SqDists(Select(pts, r), q) == Select(SqDists(pts, q), r);
    WindowSumIsBallSum(SqDists(pts, q), pts, q, buff);
  }

  /** The same for the squared deviations of the selected values from `mean`. */
  lemma WindowSqDevs(vals: seq<real>, pts: seq<Point>, q: Point, buff: int, mean: real)
    requires |pts| <= |vals|
    ensures Sum(SqDevs(Select(vals, Ball(pts, q, buff)), mean)) == WindowSum(SqDevs(vals, mean), pts, q, buff)
  {
    var r := Ball(pts, q, buff);
    assert SqDevs(Select(vals, r), mean) == Select(SqDevs(vals, mean), r);
    WindowSumIsBallSum(SqDevs(vals, mean), pts, q, buff);
  }

  /** The mean of a non-empty list lies between its minimum and maximum. */
  lemma MeanBetween(xs: seq<real>)
    requires |xs| >= 1
    ensures Minimum(xs) <= Sum(xs) / (|xs| as real) <= Maximum(xs)
  {
    SumAtLeast(xs, Minimum(xs));
    SumAtMost(xs, Maximum(xs));
    DivBetween(Sum(xs), |xs|, Minimum(xs), Maximum(xs));
  }

  /** The extremes of the window's values bound every value in the window
      and are each attained by a point in it. */
  lemma WindowExtremes(vals: seq<real>, pts: seq<Point>, q: Point, buff: int)
    requires |pts| <= |vals| && !EmptyWindow(pts, q, buff)
    ensures |Ball(pts, q, buff)| >= 1
    ensures var lo := Minimum(Select(vals, Ball(pts, q, buff)));
      && (forall j :: 0 <= j < |pts| && Within(pts[j], q, buff) ==> lo <= vals[j])
      && (exists j :: 0 <= j < |pts| && Within(pts[j], q, buff) && lo == vals[j])
    ensures var hi := Maximum(Select(vals, Ball(pts, q, buff)));
      && (forall j :: 0 <= j < |pts| && Within(pts[j], q, buff) ==> vals[j] <= hi)
      && (exists j :: 0 <= j < |pts| && Within(pts[j], q, buff) && hi == vals[j])
  {
    BallEmpty(pts, q, buff);
    var lo := Minimum(Select(vals, Ball(pts, q, buff)));
    var hi := Maximum(Select(vals, Ball(pts, q, buff)));
    SelectBounds(vals, Ball(pts, q, buff), lo, hi);
  }

  /** The extremes of the selected sizes, read back as statements about the
      positions in the window. */
  lemma SelectBounds(vals: seq<real>, results: seq<nat>, lo: real, hi: real)
    requires forall k :: 0 <= k < |results| ==> results[k] < |vals|
    requires |results| >= 1
    requires lo == Minimum(Select(vals, results)) && hi == Maximum(Select(vals, results))
    ensures forall j: nat :: j in results ==> lo <= vals[j] <= hi
    ensures exists j: nat :: j in results && lo == vals[j]
    ensures exists j: nat :: j in results && hi == vals[j]
  {
    var xs := Select(vals, results);
    forall j: nat | j in results
      ensures lo <= vals[j] <= hi
    {
      var k :| 0 <= k < |results| && results[k] == j;
      assert xs[k] == vals[j];
    }
    var k :| 0 <= k < |xs| && lo == xs[k];
    assert results[k] in results;
    var k' :| 0 <= k' < |xs| && hi == xs[k'];
    assert results[k'] in results;
  }

  // ----- lemmas -----

  lemma {:induction false} SumAppend(a: seq<real>, b: seq<real>)
    ensures Sum(a + b) == Sum(a) + Sum(b)
    decreases |b|
  {
    if |b| == 0 {
      assert a + b == a;
    } else {
      var b' := b[..|b| - 1];
      assert (a + b)[..|a + b| - 1] == a + b';
      SumAppend(a, b');
    }
  }

  lemma {:induction false} SumNonNegative(xs: seq<real>)
    requires forall k :: 0 <= k < |xs| ==> xs[k] >= 0.0
    ensures Sum(xs) >= 0.0
  {
    if |xs| > 0 {
      SumNonNegative(xs[..|xs| - 1]);
    }
  }

  lemma SquareNonNegative(d: real)
    ensures d * d >= 0.0
  {
  }

  lemma ProductNonNegative(a: real, b: real)
    requires a >= 0.0 && b >= 0.0
    ensures a * b >= 0.0
  {
  }

  lemma ScaledMeanSign(c: real, total: real, n: real)
    requires n > 0.0
    ensures c >= 0.0 && total >= 0.0 ==> c * total / n >= 0.0
  {
    if c >= 0.0 && total >= 0.0 {
      ProductNonNegative(c, total);
      QuotientNonNegative(c * total, n);
    }
  }

  lemma QuotientNonNegative(a: real, n: real)
    requires a >= 0.0 && n > 0.0
    ensures a / n >= 0.0
  {
  }

  /** A quotient of a non-negative by a positive value is finite and non-negative. */
  lemma DivideSign(a: real, b: real)
    requires a >= 0.0 && b > 0.0
    ensures Divide(a, b).Finite? && Divide(a, b).value >= 0.0
  {
  }

  /** `b` added to itself `n` times: the product n * b by repeated addition,
      so that sums can be bounded without non-linear arithmetic. */
  function Times(n: nat, b: real): real
  {
    if n == 0 then 0.0 else Times(n - 1, b) + b
  }

  lemma {:induction false} TimesIsProduct(n: nat, b: real)
    ensures Times(n, b) == (n as real) * b
  {
    if n > 0 {
      TimesIsProduct(n - 1, b);
    }
  }

  /** A non-negative multiple of a positive number has a non-negative factor. */
  lemma FactorNonNegative(x: real, c: real)
    requires c > 0.0 && x * c >= 0.0
    ensures x >= 0.0
  {
  }

  lemma DivBetween(s: real, n: nat, lo: real, hi: real)
    requires n > 0
    requires Times(n, lo) <= s <= Times(n, hi)
    ensures lo <= s / (n as real) <= hi
  {
    var c := n as real;
    var m := s / c;
    TimesIsProduct(n, lo);
    TimesIsProduct(n, hi);
    assert m * c == s;
    assert (m - lo) * c == s - c * lo;
    assert (hi - m) * c == c * hi - s;
    FactorNonNegative(m - lo, c);
    FactorNonNegative(hi - m, c);
  }

  /** A sum of values all at least `b` is at least count times `b`. */
  lemma {:induction false} SumAtLeast(xs: seq<real>, b: real)
    requires forall k :: 0 <= k < |xs| ==> b <= xs[k]
    ensures Times(|xs|, b) <= Sum(xs)
  {
    if |xs| > 0 {
      SumAtLeast(xs[..|xs| - 1], b);
    }
  }

  /** A sum of values all at most `b` is at most count times `b`. */
  lemma {:induction false} SumAtMost(xs: seq<real>, b: real)
    requires forall k :: 0 <= k < |xs| ==> xs[k] <= b
    ensures Sum(xs) <= Times(|xs|, b)
  {
    if |xs| > 0 {
      SumAtMost(xs[..|xs| - 1], b);
    }
  }

  /** The ball-query aggregate equals the reference scan over all positions. */
  lemma {:induction false} WindowSumIsBallSum(vals: seq<real>, pts: seq<Point>, q: Point, buff: int)
    requires |pts| <= |vals|
    ensures Sum(Select(vals, Ball(pts, q, buff))) == WindowSum(vals, pts, q, buff)
  {
    if |pts| > 0 {
      var n := |pts| - 1;
      var init := Ball(pts[..n], q, buff);
      WindowSumIsBallSum(vals, pts[..n], q, buff);
      if Within(pts[n], q, buff) {
        assert Ball(pts, q, buff) == init + [n];
        SelectAppend(vals, init, [n]);
        SumAppend(Select(vals, init), Select(vals, [n]));
        LastSum(vals, n);
      } else {
        assert Ball(pts, q, buff) == init;
      }
    }
  }

  /** The part one position in the window adds to a window aggregate. */
  lemma LastSum(vals: seq<real>, n: nat)
    requires n < |vals|
    ensures Sum(Select(vals, [n])) == vals[n]
  {
    assert Select(vals, [n]) == [vals[n]];
    assert [vals[n]][..0] == [];
  }

  lemma SelectAppend<T>(s: seq<T>, a: seq<nat>, b: seq<nat>)
    requires forall k :: 0 <= k < |a| ==> a[k] < |s|
    requires forall k :: 0 <= k < |b| ==> b[k] < |s|
    ensures Select(s, a + b) == Select(s, a) + Select(s, b)
  {
  }

  /** A window aggregate of non-negative values is non-negative. */
  lemma {:induction false} WindowSumNonNegative(vals: seq<real>, pts: seq<Point>, q: Point, buff: int)
    requires |pts| <= |vals|
    requires forall j :: 0 <= j < |vals| ==> vals[j] >= 0.0
    ensures WindowSum(vals, pts, q, buff) >= 0.0
  {
    if |pts| > 0 {
      WindowSumNonNegative(vals, pts[..|pts| - 1], q, buff);
    }
  }

  /** Growing the radius never drops a point from the window. */
  lemma {:induction false} BallGrows(pts: seq<Point>, q: Point, r1: int, r2: int)
    requires r1 <= r2
    ensures forall j: nat :: j in Ball(pts, q, r1) ==> j in Ball(pts, q, r2)
    ensures |Ball(pts, q, r1)| <= |Ball(pts, q, r2)|
  {
    forall j | 0 <= j < |pts| && Within(pts[j], q, r1)
      ensures Within(pts[j], q, r2)
    {
      if r1 >= 0 {
        assert r1 * r1 <= r1 * r2 <= r2 * r2;
      }
    }
    if |pts| > 0 {
      var n := |pts| - 1;
      BallGrows(pts[..n], q, r1, r2);
    }
  }

  /** The positions up to `n` within `buff` of `q`. */
  function WindowSet(pts: seq<Point>, n: nat, q: Point, buff: int): set<nat>
    requires n <= |pts|
  {
    set j: nat | j < n && Within(pts[j], q, buff)
  }

  /** The window set of a prefix does not look past the prefix. */
  lemma WindowSetPrefix(pts: seq<Point>, n: nat, q: Point, buff: int)
    requires n <= |pts|
    ensures WindowSet(pts[..n], n, q, buff) == WindowSet(pts, n, q, buff)
  {
    assert forall j :: 0 <= j < n ==> pts[..n][j] == pts[j];
  }

  /** Extending the scanned range by one position adds that position exactly
      when it lies in the window. */
  lemma WindowSetStep(pts: seq<Point>, n: nat, q: Point, buff: int)
    requires n < |pts|
    ensures WindowSet(pts, n + 1, q, buff) ==
            WindowSet(pts, n, q, buff) + (if Within(pts[n], q, buff) then {n} else {})
    ensures n !in WindowSet(pts, n, q, buff)
  {
  }

  /** The window count is the number of indexed points within `buff` of `q`. */
  lemma {:induction false} CountIsCardinality(pts: seq<Point>, q: Point, buff: int)
    ensures |Ball(pts, q, buff)| == |WindowSet(pts, |pts|, q, buff)|
  {
    if |pts| > 0 {
      var n := |pts| - 1;
      CountIsCardinality(pts[..n], q, buff);
      WindowSetPrefix(pts, n, q, buff);
      WindowSetStep(pts, n, q, buff);
    }
  }

  /** Nested windows: the count never decreases as the radius grows. */
  lemma CountNondecreasing(sh: Shared, q: Point, r1: int, r2: int, num: Numerics)
    requires r1 <= r2
    ensures Nni(sh, q, r1, num).count <= Nni(sh, q, r2, num).count
  {
    BallGrows(sh.points, q, r1, r2);
  }

  /** Querying at an indexed point counts that point itself. */
  lemma SelfCounted(sh: Shared, i: nat, buff: int, num: Numerics)
    requires i < |sh.points| && sh.points[i].Point? && buff >= 0
    ensures Nni(sh, sh.points[i], buff, num).count >= 1
  {
    assert i in Ball(sh.points, sh.points[i], buff);
  }

  /** A query at a NaN point finds nothing, whatever the radius: `nni` then
      takes its empty-window branch. */
  lemma NaNQueryEmpty(sh: Shared, buff: int, num: Numerics)
    ensures var w := Nni(sh, NotANumber, buff, num);
      w.count == 0 && w.sizes.None?
  {
    BallEmpty(sh.points, NotANumber, buff);
  }

  /** With non-negative nearest-neighbour distances the observed mean distance
      is non-negative, and so is the index whenever the expected distance is
      positive; for at most one neighbour the index is exactly zero. */
  lemma NniNonNegative(sh: Shared, q: Point, buff: int, num: Numerics)
    requires forall j :: 0 <= j < |sh.nnd| ==> sh.nnd[j] >= 0.0
    ensures var w := Nni(sh, q, buff, num);
      && w.omd >= 0.0
      && (w.count <= 1 || w.emd > 0.0 ==> w.nni.Finite? && w.nni.value >= 0.0)
  {
    var w := Nni(sh, q, buff, num);
    if w.count > 1 {
      WindowSumNonNegative(sh.nnd, sh.points, q, buff);
      QuotientNonNegative(WindowSum(sh.nnd, sh.points, q, buff), w.count as real);
      if w.emd > 0.0 {
        DivideSign(w.omd, w.emd);
      }
    }
  }

  /** Three buildings one unit apart on a line, each of size 100 with
      nearest-neighbour distance 1. */
  function ThreeInARowSnapshot(): Shared
  {
    Snapshot([Point(0.0, 0.0), Point(0.0, 1.0), Point(0.0, 2.0)], [1.0, 1.0, 1.0], [100.0, 100.0, 100.0])
  }

  lemma ThreeInARowBall()
    ensures |Ball(ThreeInARowSnapshot().points, Point(0.0, 1.0), 1)| == 3
  {
    var pts := ThreeInARowSnapshot().points;
    var q := Point(0.0, 1.0);
    var p1, p2 := pts[..1], pts[..2];
    assert p1[..0] == [] && p2[..1] == p1;
    assert Within(pts[0], q, 1) && Within(pts[1], q, 1) && Within(pts[2], q, 1);
    assert |Ball([], q, 1)| == 0;
    assert |Ball(p1, q, 1)| == 1;
    assert |Ball(p2, q, 1)| == 2;
  }

  lemma ThreeInARowSums()
    ensures var sh := ThreeInARowSnapshot();
      && WindowSum(sh.nnd, sh.points, Point(0.0, 1.0), 1) == 3.0
      && WindowSum(sh.sqft, sh.points, Point(0.0, 1.0), 1) == 300.0
  {
    var sh := ThreeInARowSnapshot();
    var pts := sh.points;
    var q := Point(0.0, 1.0);
    var p1, p2 := pts[..1], pts[..2];
    assert p1[..0] == [] && p2[..1] == p1;
    assert Within(pts[0], q, 1) && Within(pts[1], q, 1) && Within(pts[2], q, 1);
    assert WindowSum(sh.nnd, [], q, 1) == 0.0;
    assert WindowSum(sh.nnd, p1, q, 1) == 1.0;
    assert WindowSum(sh.nnd, p2, q, 1) == 2.0;
    assert WindowSum(sh.sqft, [], q, 1) == 0.0;
    assert WindowSum(sh.sqft, p1, q, 1) == 100.0;
    assert WindowSum(sh.sqft, p2, q, 1) == 200.0;
  }

  /** Equal sizes deviate nowhere from their mean of 100. */
  lemma ThreeInARowDeviations()
    ensures var sh := ThreeInARowSnapshot();
      WindowSum(SqDevs(sh.sqft, 100.0), sh.points, Point(0.0, 1.0), 1) == 0.0
  {
    var sh := ThreeInARowSnapshot();
    var pts := sh.points;
    var q := Point(0.0, 1.0);
    var devs := SqDevs(sh.sqft, 100.0);
    assert devs[0] == 0.0 && devs[1] == 0.0 && devs[2] == 0.0;
    var p1, p2 := pts[..1], pts[..2];
    assert p1[..0] == [] && p2[..1] == p1;
    assert WindowSum(devs, [], q, 1) == 0.0;
    assert WindowSum(devs, p1, q, 1) == 0.0;
    assert WindowSum(devs, p2, q, 1) == 0.0;
  }

  /** A crowded window whose buildings all have size `m` and whose mean
      nearest-neighbour distance is `d`: the index is d / emd, the mean size is
      `m`, and the standard deviation is the square root of 0, so the
      coefficient of variation is sqrt(0) / m. */
  lemma UniformWindow(sh: Shared, q: Point, buff: int, num: Numerics, w: WindowStats, d: real, m: real)
    requires CrowdedWindow(sh, q, buff, num, w)
    requires WindowSum(sh.nnd, sh.points, q, buff) / (w.count as real) == d
    requires WindowSum(sh.sqft, sh.points, q, buff) / (w.count as real) == m
    requires WindowSum(SqDevs(sh.sqft, m), sh.points, q, buff) == 0.0
    ensures w.omd == d && w.nni == Divide(d, w.emd)
    ensures w.sizes.value.mean == m
    ensures w.sizes.value.std == num.sqrt(0.0)
    ensures w.sizes.value.cv == Divide(num.sqrt(0.0), m)
  {
    ZeroDeviationStd(num, w.count);
  }

  /** The unit window around the middle of the three holds all three, with
      observed mean distance 1, the expected distance for three points, index
      1 / emd, mean size 100 and a standard deviation that is the square root of
      0, so a coefficient of variation of sqrt(0) / 100. */
  lemma ThreeInARow(num: Numerics)
    ensures var w := Nni(ThreeInARowSnapshot(), Point(0.0, 1.0), 1, num);
      && w.count == 3 && w.omd == 1.0
      && w.emd == ExpectedDistance(num, 1, 3)
      && w.nni == Divide(1.0, ExpectedDistance(num, 1, 3))
      && w.sizes.Some? && w.sizes.value.mean == 100.0
      && w.sizes.value.std == num.sqrt(0.0)
      && w.sizes.value.cv == Divide(num.sqrt(0.0), 100.0)
  {
    var sh := ThreeInARowSnapshot();
    var q := Point(0.0, 1.0);
    ThreeInARowBall();
    ThreeInARowSums();
    ThreeInARowDeviations();
    var w := Nni(sh, q, 1, num);
    assert w.count == 3;
    assert CrowdedWindow(sh, q, 1, num, w);
    AverageOfThree(WindowSum(sh.nnd, sh.points, q, 1), w.count, 1.0);
    AverageOfThree(WindowSum(sh.sqft, sh.points, q, 1), w.count, 100.0);
    UniformWindow(sh, q, 1, num, w, 1.0, 100.0);
  }

  lemma AverageOfThree(total: real, n: nat, avg: real)
    requires n == 3 && total == 3.0 * avg
    ensures total / (n as real) == avg
  {
  }

  lemma ZeroDeviationStd(num: Numerics, n: nat)
    requires n > 1
    ensures SampleStd(num, 0.0, n) == num.sqrt(0.0)
  {
    var d := n as real - 1.0;
    assert SampleStd(num, 0.0, n) == num.sqrt(0.0 / d);
    assert 0.0 / d == 0.0;
  }
}
